=== FILE: README.md ===
# Booster opening, modelled in Dafny

A model of the loot-box core of a small TypeScript game service. It covers:

- the four booster classes of `booster.ts`:
  - `Booster`: a uniform pick from an item pool, with a rarity drawn below a cap and an optional guarantee counter;
  - `LuckBooster`: a chain of coin tosses that may upgrade the rarity;
  - `UniformBooster`: narrows the pool so that every item type drops before any repeats;
  - `CollectionBooster`: weights the pick towards items the player owns fewer of;
- the randomness utility they stand on (`utils/random.js`);
- the item record and its enums (`item.ts`).

Modules, one per concern:

| module | file | models |
|---|---|---|
| `Outcomes` | outcomes.dfy | optional values and the error results that replace JavaScript exceptions |
| `Items` | items.dfy | `RARITY`, `ITEMTYPE`, `Item` and the constants the boosters compute from the enums |
| `Random` | random.dfy | `random`, `random_int`, `random_coin`, `random_distribution`, and `Math.round` |
| `Keys` | keys.dfy | the order in which `Object.keys` lists integer keys |
| `Novelty` | novelty.dfy | the owned counts and the inverse-frequency weights of `CollectionBooster.getRandomId` |
| `Boosters` | boosters.dfy | booster state, constructors, every overridden method and `getBoosterLoot` |
| `BoosterProperties` | properties.dfy | properties of whole openings and of runs of drops |

**Randomness.** `random()` is the only primitive the source uses. Here it is an explicit stream of draws in [0, 1) with a position (`Random.Draws`). Every operation takes the stream and returns the stream after the draws it consumed. The same stream therefore gives the same opening, whether it came from `Math.random` or from the seeded generator of `MyRandomSeed`.

**Booster state.** A booster is one immutable record, tagged with its class (`Boosters.Policy`). Each method returns a `Step`: its value, the booster after it, and the draws left. The mutable fields the source changes are:

- the guarantee counter;
- the loot history;
- the attached inventory.

The uniform booster also swaps the pool itself for the length of one drop. The model passes the narrowed pool as a value instead; see the `Boosters.UniformRandomItem` lines under "Left out".

**The proved properties:**

- the exact draw window that selects each pool key;
- the coin-by-coin account of the rarity upgrade;
- that uniform boosters bring a new type with every drop until four types are in the loot;
- the schedule of the rarity guarantee;
- that the collection weights are a probability distribution that prefers less-owned items.

**The base id pick is not uniform.** `Math.round(random_int(0, n - 1))` gives the smallest and the largest key half-width draw windows (`Boosters.BaseRandomIdWindow`). With keys {1, 2, 3}, the windows are [0, 0.25), [0.25, 0.75) and [0.75, 1). The model reproduces this as written. The drop count has the same skew: with whole bounds, `Math.round(random_int(min, max))` gives `min` and `max` half-width windows (`Boosters.ItemsNumWindow`). Without a counter, the rarity is the cap exactly when the draw is at least 1/2 (`Boosters.RarityWindow`).

**What the code does, which its comments do not say.** The model follows the code:

- `Object.keys` lists integer keys in ascending order, not insertion order (`Keys.SortedKeys`).
- The element test of `random_distribution` rejects only NaN, although its error message promises that only numbers from 0 to 1 pass (utils/random.js:52-53). `0 <= x <= 1` parses as `(0 <= x) <= 1`, which is always true (`Random.RejectsOnlyNaN`).
- The comment on `new_item_chance_mul` says raising it makes new items more likely (booster.ts:271-273). In fact it multiplies every raw weight and the sum alike, so it cancels out and does not sharpen the bias (`Novelty.NoveltyWeightsIgnoreMultiplier`).
- The comment on the uniform drop says items of every type drop first (booster.ts:236). The uniform booster stops narrowing the pool when the loot holds exactly four distinct types. `ITEMTYPE` has five members, counting `UNKNOWN`, so a loot with all five narrows to an empty pool (`Boosters.AllTypesLeaveNoCandidates`).
- The quantity in the inventory and booster that the collection weights invert (booster.ts:293-294) counts the drops of the whole loot history of the booster object, not just the current opening (`Novelty.Owned`, `BoosterProperties.HistoryAccumulates`).

**Where the model departs from the code.** An empty candidate pool ends the opening with an error result. In the source, it produces an item built from `undefined` fields (base pick) or a `TypeError` (collection pick). See "Left out".

## Model

| member | source | states |
|---|---|---|
| Items.RarityOrdinal | item.ts:2-7 | each rarity's numeric value is its position in the declaration: COMMON 0 up to LEGENDARY 3 |
| Items.RarityOf | item.ts:2-7 | turning a number 0..3 back into a rarity is the inverse of taking the ordinal |
| Items.ItemTypeOrdinal | item.ts:10-16 | each item type's numeric value is its position in the declaration: UNKNOWN 0 up to ARMOR 4 |
| Items.EnumConstants | item.ts:2-16 | the halved `Object.keys` counts the boosters use (booster.ts:184, 202, 228, 244) are 3, 5 and 4; 3 is LEGENDARY's ordinal, no rarity exceeds it, and 4 is ARMOR's ordinal |
| Items.RarityOr | item.ts:39 | `rarity \|\| COMMON` yields the given rarity, or COMMON when none is given |
| Items.NewItem | item.ts:36-41 | the constructor keeps id, name and type, and defaults a missing rarity to COMMON |
| Random.Next | utils/random.js:13-15 | `random()` fails only on an exhausted stream, and otherwise returns the next draw and consumes exactly one |
| Random.Round | booster.ts:138 | `Math.round(x)` is the integer within (x - 1/2, x + 1/2] |
| Random.RoundIsIff | booster.ts:138 | `Math.round(y)` is `n` exactly when `y` lies in [n - 1/2, n + 1/2) |
| Random.Pow | booster.ts:204 | `chance ** level` of a probability is a probability, and positive when the chance is |
| Random.ProductOfProbabilities | booster.ts:204 | a product of two probabilities is a probability, positive when both are |
| Random.Stretch | utils/random.js:24 | a draw in [0, 1) times a positive width lands in [0, width); a zero width gives 0 |
| Random.RandomInt | utils/random.js:23-25 | `random_int` consumes one draw, and its value is that draw times `max - min` plus `min`; hence it lies in [min, max), or equals min when min == max |
| Random.RoundedRandomIntInRange | booster.ts:117-119 | rounding a `random_int` draw between integer bounds gives an integer between them, both inclusive |
| Random.RandomCoin | utils/random.js:33-39 | `random_coin` consumes exactly two draws and is true exactly when the second falls strictly inside the window the first placed; it is never true for probability 0 |
| Random.CoinWindowInUnit | utils/random.js:34-36 | for a probability in [0, 1] the acceptance window lies inside [0, 1], so a uniform second draw wins with exactly that probability |
| Random.RejectsOnlyNaN | utils/random.js:52 | the element test rejects a weight exactly when it is NaN; -1 and 2 pass |
| Random.SumAcceptedIff | utils/random.js:55-58 | the rounded-sum test holds exactly when the sum lies in [1 - 0.5·10^-acc, 1 + 0.5·10^-acc) |
| Random.SelectFrom | utils/random.js:61-66 | the accumulate-and-compare loop returns the first index whose running sum exceeds the draw, or the last index |
| Random.Select | utils/random.js:60-68 | the index chosen for a draw is the first index whose running sum exceeds it, or the last index when none does |
| Random.SelectedWeightPositive | utils/random.js:62-65 | an index the loop returns without falling back has a positive weight |
| Random.RandomDistribution | utils/random.js:50-69 | InvalidWeights exactly when some weight is NaN; EmptyWeights exactly when the list is empty; WeightSumMismatch exactly when the sum is outside the accuracy window; weights that pass both tests succeed exactly when a draw is left, with the index the loop selects for that draw |
| Random.ValidationIgnoresDraws | utils/random.js:52-58 | both validation failures happen before any draw, so they do not depend on the stream |
| Keys.SortedKeys | booster.ts:116 | `Object.keys` of an integer-keyed object lists every key exactly once, nothing else |
| Keys.SortedKeysAscending | booster.ts:116 | the listed keys are strictly ascending |
| Novelty.ZeroCounts | booster.ts:303-304 | the counts start with exactly the candidate ids, each at 0 |
| Novelty.AssignInventory | booster.ts:306-310 | the inventory pass keeps the key set, sets each candidate that has an inventory entry to that quantity, and leaves the others as they were |
| Novelty.AddLoot | booster.ts:311-314 | the loot pass keeps the key set and adds, for each candidate id, the number of drops carrying it |
| Novelty.OwnedCounts | booster.ts:301-314 | the finished map has exactly the candidate ids, each mapped to its inventory quantity plus its drops in the loot history |
| Novelty.MaxOf | booster.ts:320 | `Math.max` of a non-empty list is an element of it and bounds every element |
| Novelty.Headroom | booster.ts:320-322 | each raw weight `max_num - y` is the largest count plus one minus the count, so never below 1 |
| Novelty.SumTimes | booster.ts:321-323 | the sum of the multiplied weights is the multiplier times the sum |
| Novelty.HeadroomSum | booster.ts:320-323 | the raw headroom sum is at least the number of candidates, so never 0 |
| Novelty.SharesSumToOne | booster.ts:324-326 | dividing by a non-zero total yields finite weights that sum to exactly 1 |
| Novelty.SharesKeepOrder | booster.ts:324-326 | dividing by a positive total keeps the order between any two weights |
| Novelty.SharesIgnoreScale | booster.ts:321-326 | scaling every raw weight by a non-zero factor leaves the normalised weights unchanged |
| Novelty.NoveltyWeights | booster.ts:318-326 | one weight per owned count, in the same order; what the weights are is stated by the lemmas NoveltyWeightsNormal to NoveltyWeightsIgnoreMultiplier below |
| Novelty.NoveltyWeightsNormal | booster.ts:318-326 | with a non-zero multiplier the weights are the headroom shares |
| Novelty.NoveltyWeightsFinite | booster.ts:321-326 | some weight is NaN exactly when the multiplier is 0 and there are candidates (0/0) |
| Novelty.NoveltyWeightsPositive | booster.ts:318-326 | every weight lies in (0, 1] |
| Novelty.NoveltyWeightsSumToOne | booster.ts:318-326 | the weights sum to exactly 1 |
| Novelty.NoveltyWeightsAntitone | booster.ts:316-326 | a candidate owned no more often than another has at least its weight, strictly more when owned strictly less |
| Novelty.NoveltyWeightsIgnoreMultiplier | booster.ts:321-326 | every non-zero multiplier yields the weights of multiplier 1 |
| Boosters.ValidateItemsNum | booster.ts:87-93 | the result is a valid range: a negative min becomes 0, a missing or smaller max becomes min, and a number n becomes [n, n] |
| Boosters.ValidateItemsNumIdempotent | booster.ts:87-93 | validating a validated range changes nothing |
| Boosters.ValidateItemsNumFixesValid | booster.ts:87-93 | a range passes unchanged exactly when it is already valid |
| Boosters.NewBooster | booster.ts:67-80 | the constructor copies pool and guarantee, defaults the rarity to COMMON, starts with empty loot and inventory, turns an omitted range into [0, 0], and passes a given range through `validate_items_num` |
| Boosters.ChanceSetting | booster.ts:176 | `rarity_upgrade_chance \|\| .1` is never 0 |
| Boosters.NewLuck | booster.ts:174-177 | the luck booster is the base booster plus a chance that is the given one, or 0.1 when it is omitted or 0 |
| Boosters.UniformRange | booster.ts:227-232 | the uniform range is valid, its min is at least 4 and at least the old min, and its max is at least both |
| Boosters.NewUniform | booster.ts:225-233 | the uniform booster is the luck booster with a range raised to at least four drops; nothing else changes |
| Boosters.MultiplierSetting | booster.ts:277-280 | the multiplier is at least 1, and equals the given value when that is at least 1 |
| Boosters.NewCollection | booster.ts:275-281 | the collection booster is the uniform booster plus a multiplier of at least 1 (the given one if at least 1, else 1) |
| Boosters.ItemsNum | booster.ts:137-139 | the count consumes one draw and lies between the rounded bounds of the range |
| Boosters.ItemsNumWindow | booster.ts:137-139 | the count is `c` exactly when `d·(max - min) + min` lies in [c - 1/2, c + 1/2), `d` being the draw |
| Boosters.ItemsNumInRange | booster.ts:137-139 | with whole-number bounds the count lies between them, both inclusive |
| Boosters.RandomRarity | booster.ts:144-156 | COMMON for a COMMON cap; one draw giving the cap or the rarity below when there is no counter; the cap and a decremented counter while it is positive; the rarity below once it is not; only the counter changes |
| Boosters.RarityWindow | booster.ts:147-150 | with no counter and a cap above COMMON, the rarity is the cap exactly when the draw is at least 1/2 |
| Boosters.GuaranteeStaysNonNegative | booster.ts:151-154 | a non-negative counter stays non-negative and drops by at most 1 |
| Boosters.BaseRandomId | booster.ts:115-120 | the pick fails exactly on an empty pool or stream, and otherwise returns a pool key and consumes one draw |
| Boosters.BaseRandomIdIndex | booster.ts:116-119 | the picked key is the one at index `Math.round(d·(n - 1))` of the ascending key list, `d` being the next draw; that index is in range |
| Boosters.BaseRandomIdWindow | booster.ts:117-119 | the k-th key is picked exactly when `d·(n - 1)` lies in [k - 1/2, k + 1/2), so the end keys get half-width windows |
| Boosters.OwnedInOrder | booster.ts:298-318 | `Object.values(items)` lists each candidate's owned count in ascending id order |
| Boosters.CollectionWeights | booster.ts:318-329 | one weight per pool key, the novelty weights of the owned counts in ascending id order; their properties are stated by CollectionWeightsAccepted and CollectionRandomIdSelects |
| Boosters.CollectionRandomId | booster.ts:297-331 | the collection pick returns a pool key and consumes one draw, and an empty pool fails |
| Boosters.CollectionWeightsAccepted | booster.ts:318-329 | the weights of a non-empty pool pass both tests of `random_distribution` |
| Boosters.CollectionRandomIdOk | booster.ts:297-331 | with the multiplier the constructor guarantees, the collection pick succeeds exactly when the pool and the stream are non-empty, and on a non-empty pool it fails only for lack of draws |
| Boosters.CollectionRandomIdSelects | booster.ts:328-330 | the picked id is the key whose index `random_distribution` selects for the next draw under the novelty weights |
| Boosters.CollectionZeroMultiplier | booster.ts:321-326 | a multiplier of 0 makes every weight NaN, and the pick fails with InvalidWeights |
| Boosters.RandomId | booster.ts:126 | whichever class picks, the result is a pool key and one draw is consumed |
| Boosters.RandomIdOutcome | booster.ts:115-120 | for the base pick and the collection pick (booster.ts:297-331) alike: with the multiplier set, a pick succeeds exactly when the pool and the stream are non-empty, fails with the error its class raises for an empty pool or for lack of draws, and on a non-empty pool only for lack of draws; a zero multiplier always fails |
| Boosters.BaseRandomItem | booster.ts:125-131 | the drop copies, up to rarity, the pool entry of the id `getRandomId` picks; its rarity is the one `getRandomRarity` draws next, no higher than the booster's; at most two draws; only the counter changes |
| Boosters.BaseRandomItemFails | booster.ts:125-131 | the drop fails with the pick's error when the pick fails, and otherwise only for lack of a second draw |
| Boosters.BaseRandomItemOutcome | booster.ts:125-131 | with the multiplier set and a non-empty pool the drop fails only for lack of draws and always succeeds with two draws left; an empty pool or a zero multiplier always fails |
| Boosters.IsRarityUpgradable | booster.ts:201-206 | levels outside [0, 5] consume nothing and say no; other levels need two draws, consume exactly two, and say yes exactly when the second lands in the window of width `chance ** level` the first placed |
| Boosters.UpgradeFrom | booster.ts:185-190 | the loop never lowers the rarity or passes LEGENDARY, consumes an even number of draws, and fails only when the stream is too short |
| Boosters.UpgradeDraws | booster.ts:185-190 | the loop from level i consumes at most two draws per remaining level, and none once past the top |
| Boosters.UpgradeStep | booster.ts:185-190 | one level: stop past the top, or toss two draws and either win here or continue one level up |
| Boosters.UpgradeIsFirstWin | booster.ts:185-190 | an upgrade by j levels means the coin at j won, every lower coin lost, and exactly those coins were tossed |
| Boosters.NoUpgradeMeansAllLost | booster.ts:185-190 | no upgrade means every coin up to the top was tossed and lost |
| Boosters.LuckRandomItem | booster.ts:182-192 | the base drop with its rarity raised (never lowered) by exactly the levels the upgrade loop, started at level 1 on the draws after the base drop, gains; a LEGENDARY drop tosses no coin |
| Boosters.LuckRandomItemOutcome | booster.ts:182-192 | a luck drop fails with the base drop's error, or for lack of draws after it; it takes at most `2 + 2·3` draws, so it succeeds whenever the base drop does and that many are left |
| Boosters.UsedTypes | booster.ts:240 | every type in the loot is in the used set |
| Boosters.UsedTypesExact | booster.ts:240 | a type is used exactly when some drop of the loot has it |
| Boosters.NarrowPool | booster.ts:245-249 | the narrowed pool holds exactly the entries whose type is unused, unchanged |
| Boosters.Candidates | booster.ts:243-250 | an id is a candidate exactly when it is in the pool and either the loot holds exactly four types or its type is not in the loot; candidates keep their pool entries |
| Boosters.AllTypesLeaveNoCandidates | booster.ts:243-250 | once the loot holds all five item types, the candidate pool is empty |
| Boosters.UniformRandomItem | booster.ts:239-256 | the drop and the draws it leaves are those of the luck drop from the candidate pool, and it fails exactly when that drop does, with the same error; the drop has a new type while the loot does not hold four; an empty candidate pool fails; the pool is restored |
| Boosters.GetRandomItem | booster.ts:107 | whichever class draws, the drop is a copy of a pool entry and only the counter changes |
| Boosters.DrawPool | booster.ts:243-250 | the pool a drop is drawn from is a sub-pool of the booster's, with the same entries |
| Boosters.GetRandomItemPicks | booster.ts:239-256 | whatever the class (the base drop of booster.ts:125-131 included), the drop copies the pool entry of the id `getRandomId` picks from the pool the class draws on, and takes at most `2 + 2·3` draws |
| Boosters.GetRandomItemOutcome | booster.ts:107 | a drop with an empty draw pool or a zero multiplier fails; otherwise it fails only for lack of draws and succeeds with `2 + 2·3` draws left; with the multiplier set, its errors are those of the class's pick |
| Boosters.Pushed | booster.ts:107 | `booster_loot.push` appends the drop to the end of the loot |
| Boosters.DrawItems | booster.ts:105-107 | k drops, each a copy of a pool entry, appended to the loot in order |
| Boosters.Open | booster.ts:101-110 | an empty pool returns nothing and draws nothing; otherwise the loot grows within the rounded range, only with pool copies, the inventory is cleared, and the whole history is returned |
| Boosters.DrawItemsDraws | booster.ts:106-107 | k drops take at most `2 + 2·3` draws each |
| Boosters.DrawItemsOutcome | booster.ts:106-107 | with the multiplier set, the loop fails only with the errors of the class's pick; a base or luck booster with a non-empty pool fails only for lack of draws, and succeeds with `(2 + 2·3)·k` draws left |
| Boosters.OpenOutcome | booster.ts:101-110 | with the multiplier set, an opening fails only with the errors of the class's pick; a base or luck opening of a non-empty pool fails only for lack of draws |
| Boosters.OpenSucceeds | booster.ts:101-110 | a base or luck opening with a valid range succeeds whenever the stream holds the count draw and `2 + 2·3` draws for each of the most drops the range allows |
| Boosters.OpenIsDrawItems | booster.ts:101-110 | an opening of a non-empty pool is the drop loop, run for the drawn count (none if negative) on the booster with the caller's inventory attached; the loot is the old loot followed by those drops, and the inventory is cleared after |
| Boosters.OpenDrawsCount | booster.ts:105-107 | an opening adds exactly the drawn count of drops, none for a negative count |
| BoosterProperties.DefaultRangeDropsNothing | booster.ts:72-74 | a base or luck booster built without a range drops nothing |
| BoosterProperties.UniformDropsAtLeastFour | booster.ts:225-233 | every opening of a new, non-empty uniform booster, or of a collection booster built on one (booster.ts:275-276), drops at least four items |
| BoosterProperties.HistoryAccumulates | booster.ts:104-109 | the loot returned by a second opening extends the first one's, which extends the loot before; the pool is intact and the inventory cleared |
| BoosterProperties.UsedTypesAppend | booster.ts:240 | one more drop adds exactly its type to the used set |
| BoosterProperties.DrawItemsStep | booster.ts:106-107 | k drops are one drop, then k - 1 drops by the booster that has pushed it |
| BoosterProperties.UniformDropAddsType | booster.ts:239-256 | a drop of a uniform booster below four types adds exactly one type |
| BoosterProperties.UniformDropsNewTypes | booster.ts:239-256 | while at most four types are reached, k drops add exactly k distinct types |
| BoosterProperties.GuaranteedDrop | booster.ts:151-155 | for a base booster: with a positive counter the drop has the cap rarity and the counter drops by 1; at 0 it has the rarity below |
| BoosterProperties.GuaranteeSchedule | booster.ts:144-156 | for a base booster (a luck upgrade can lift a drop above the cap schedule): with counter g, the first g drops have the cap rarity and every later drop the rarity below |
| BoosterProperties.BaseDropCounter | booster.ts:125-131 | the base drop counts a running counter down by one, stopping at 0 |
| BoosterProperties.DropCounter | booster.ts:183 | every class draws its rarity through the base drop, so every drop counts a running counter down by one, stopping at 0 |
| BoosterProperties.GuaranteeCountsDown | booster.ts:151-155 | for every class, after k drops the counter is g - k, or 0 once it has run out |
| BoosterProperties.LevelBoundNeverRejects | booster.ts:202-205 | the level bound 5 never rejects the levels 1..3 the upgrade loop asks about |
| BoosterProperties.BaseDropIndex | booster.ts:115-131 | for every class but the collection booster, the base drop copies the pool entry at index `Math.round(d·(n - 1))` of the ascending key list, `d` being the first draw |
| BoosterProperties.LuckUpgradeIsFirstWin | booster.ts:182-192 | a luck drop raised by j levels won the coin of level j and lost every lower one; one not raised lost every coin up to the top; the coins follow the base drop's draws |
| BoosterProperties.CollectionPrefersLessOwned | booster.ts:297-331 | the less-owned of two candidates has at least the other's weight, strictly more when owned strictly less |

## Left out

- I/O and wiring: `main.ts`, `api/boosterservice.js` and the loading of item and booster data are not part of this model. Neither is the choice of class by name.
- The random source: `Math.random` and the `seedrandom` generator behind `MyRandomSeed` are replaced by an explicit stream of draws. The `random_seed` setting and the choice of generator (booster.ts:68, 76-78) are not modelled.
- DrawsExhausted: a finite stream can run out, so every drawing operation can fail with `DrawsExhausted`. The source's generators never run out; this error exists only because the stream is finite.
- Floating point: reals stand in for IEEE doubles in the count range, `random_int`, the coin window, `chance ** level` and the weights. Rounding errors are not modelled.
- Novelty.NoveltyWeightsIgnoreMultiplier: holds over reals only. With doubles, multiplying and then dividing by the multiplier can change the last bits of a weight.
- Boosters.UniformRandomItem: an empty candidate pool, such as one with no item of an unused type, ends the drop and the opening with an error. The source builds an item from `undefined` fields and goes on (booster.ts:117-119, 127-130).
- Boosters.BaseRandomId: an empty pool gives `EmptyCandidatePool`, where the source indexes past the key list and parses `undefined`.
- Boosters.CollectionRandomId: an empty pool gives `EmptyWeights` for the `TypeError` of `reduce` with no initial value (utils/random.js:55).
- Boosters.Open: an error result discards the whole booster state. After an exception the source keeps the loot already pushed, the decremented counter and the attached inventory (booster.ts:104-108). A collection booster also keeps the narrowed pool (see Boosters.UniformRandomItem below).
- Boosters.Open: returns the loot as a value. The source returns the live `booster_loot` array, so an array returned by one opening keeps growing during later openings of the same booster.
- Keys.SortedKeys: lists any integer keys in ascending order. JavaScript uses that order only for array-index keys 0 .. 2^32 - 2; negative or larger ids would follow in insertion order.
- Boosters.NewBooster: `rarity_guarant` is an optional integer. A fractional or `null` counter, and NaN or non-enum settings that `||` lets through, are not modelled.
- Boosters.UniformRandomItem: the source replaces the shared `items_available` with the narrowed pool during the drop and puts it back afterwards, with no `finally` (booster.ts:248-253). When the collection pick throws on an empty narrowed pool (the `reduce` TypeError of utils/random.js:55), the empty pool stays installed, so every later `getBoosterLoot` of that booster returns `[]` (booster.ts:102). The model passes the narrowed pool as a value and its error discards the state, so this stuck state is not modelled.
- CollectionBooster.getBoosterLoot (booster.ts:288-290) only forwards to the base method. That the inventory is required there is a typing rule at the call site, not modelled.

=== FILE: boosters.dfy ===
/** The booster hierarchy of booster.ts: Booster, LuckBooster, UniformBooster
    and CollectionBooster, as one state record tagged with the class.

    Every operation is a function of the booster state and the stream of
    `random()` draws; it returns the value, the updated state and the draws
    it left. The overridden methods are separate functions and the dynamic
    dispatch of `getRandomId` and `getRandomItem` is a match on the tag. */
module Boosters {
  import opened Outcomes
  import opened Items
  import opened Random
  import opened Keys
  import opened Novelty

  /** `items_available`: item id to item. */
  type Pool = map<int, Item>

  /** The class of a booster with the fields only its subclasses add. */
  datatype Policy =
    | Plain
    | Luck(upgradeChance: real)
    | Uniform(upgradeChance: real)
    | Collection(upgradeChance: real, newItemChanceMul: real)

  /** `items_num_range` after validation. */
  datatype CountRange = CountRange(min: real, max: real) {
    predicate Valid() {
      0.0 <= min <= max
    }
  }

  /** The state of one booster object. `loot` is `booster_loot`, the history of
      every drop since construction; `inventory` is `player_inventory`. */
  datatype Booster = Booster(
    policy: Policy,
    rarity: Rarity,
    guarantee: Option<int>,
    range: CountRange,
    pool: Pool,
    loot: seq<Item>,
    inventory: Inventory)

  /** `items_num_range` as given: a number, or a pair whose second element may be missing. */
  datatype CountSetting = Scalar(n: real) | Pair(low: real, high: Option<real>)

  /** The settings interfaces, from IBoosterSettings to ICollectionBoosterSettings.
      `random_seed` is not here: the draws are a parameter of every operation. */
  datatype Settings = Settings(
    countRange: Option<CountSetting>,
    rarity: Option<Rarity>,
    guarantee: Option<int>,
    pool: Pool,
    upgradeChance: Option<real>,
    newItemChanceMul: Option<real>)

  /** A value, the booster after computing it, and the draws left. */
  datatype Step<+T> = Step(value: T, booster: Booster, rest: Draws)

  function MaxReal(a: real, b: real): real {
    if a < b then b else a
  }

  /** Construction */

  /** validate_items_num. */
  function ValidateItemsNum(c: CountSetting): (r: CountRange)
    ensures r.Valid()
    ensures c.Scalar? ==> r.min == r.max == MaxReal(c.n, 0.0)
    ensures c.Pair? ==> r.min == MaxReal(c.low, 0.0)
    ensures c.Pair? && c.high.Some? && c.high.value >= r.min ==> r.max == c.high.value
    ensures c.Pair? && (c.high.None? || c.high.value < r.min) ==> r.max == r.min
  {
    var (min, max) := match c
      case Scalar(n) => (n, Some(n))
      case Pair(low, high) => (low, high);
    var min := if min < 0.0 then 0.0 else min;
    var max := if max.None? || max.value < min then min else max.value;
    CountRange(min, max)
  }

  /** A validated range is its own validation. */
  lemma ValidateItemsNumIdempotent(c: CountSetting)
    ensures var r := ValidateItemsNum(c); ValidateItemsNum(Pair(r.min, Some(r.max))) == r
  {
  }

  /** Validation leaves exactly the valid ranges unchanged. */
  lemma ValidateItemsNumFixesValid(r: CountRange)
    ensures ValidateItemsNum(Pair(r.min, Some(r.max))) == r <==> r.Valid()
  {
  }

  /** The Booster constructor. The field initializer [1, 5] is always
      overwritten: an omitted range becomes `validate_items_num(0)`. */
  function NewBooster(st: Settings): (b: Booster)
    ensures b.policy == Plain && b.pool == st.pool && b.guarantee == st.guarantee
    ensures b.rarity == st.rarity.GetOr(Common)
    ensures b.range.Valid()
    ensures st.countRange.None? ==> b.range == CountRange(0.0, 0.0)
    ensures st.countRange.Some? ==> b.range == ValidateItemsNum(st.countRange.value)
    ensures b.loot == [] && b.inventory == map[]
  {
    var rarity := RarityOr(st.rarity);
    var given := if st.countRange.None? then Scalar(0.0) else st.countRange.value;
    Booster(Plain, rarity, st.guarantee, ValidateItemsNum(given), st.pool, [], map[])
  }

  /** `rarity_upgrade_chance || .1`: both an omitted chance and 0 become 0.1. */
  function ChanceSetting(given: Option<real>): (c: real)
    ensures c != 0.0
  {
    if given.None? || given.value == 0.0 then 0.1 else given.value
  }

  /** The LuckBooster constructor: what `super(settings)` sets, plus the chance. */
  function NewLuck(st: Settings): (b: Booster)
    ensures b.policy.Luck? && b.policy.upgradeChance != 0.0
    ensures st.upgradeChance.Some? && st.upgradeChance.value != 0.0 ==> b.policy.upgradeChance == st.upgradeChance.value
    ensures st.upgradeChance.None? || st.upgradeChance.value == 0.0 ==> b.policy.upgradeChance == 0.1
    ensures b.(policy := Plain) == NewBooster(st)
  {
    NewBooster(st).(policy := Luck(ChanceSetting(st.upgradeChance)))
  }

  /** The UniformBooster constructor: at least one drop per item type the
      booster aims to cover. */
  function UniformRange(r: CountRange): (u: CountRange)
    requires r.Valid()
    ensures u.Valid()
    ensures u.min == MaxReal(CoverageTarget as real, r.min)
    ensures u.max == MaxReal(r.max, u.min)
  {
    var min := MaxReal(CoverageTarget as real, r.min);
    CountRange(min, MaxReal(MaxReal(r.min, r.max), min))
  }

  function NewUniform(st: Settings): (b: Booster)
    ensures b.policy.Uniform? && b.policy.upgradeChance == NewLuck(st).policy.upgradeChance
    ensures b.range.Valid() && b.range.min >= CoverageTarget as real
    ensures b.range.min == MaxReal(CoverageTarget as real, NewBooster(st).range.min)
    ensures b.range.max == MaxReal(NewBooster(st).range.max, b.range.min)
    ensures b.(policy := Plain, range := NewBooster(st).range) == NewBooster(st)
  {
    var luck := NewLuck(st);
    luck.(policy := Uniform(luck.policy.upgradeChance), range := UniformRange(luck.range))
  }

  /** `new_item_chance_mul || 1`, then raised to 1 when below 1. */
  function MultiplierSetting(given: Option<real>): (m: real)
    ensures m >= 1.0
    ensures given.Some? && given.value >= 1.0 ==> m == given.value
  {
    var m := if given.None? || given.value == 0.0 then 1.0 else given.value;
    if m < 1.0 then 1.0 else m
  }

  /** The CollectionBooster constructor. */
  function NewCollection(st: Settings): (b: Booster)
    ensures b.policy.Collection? && b.policy.upgradeChance == NewUniform(st).policy.upgradeChance
    ensures b.policy.newItemChanceMul >= 1.0
    ensures st.newItemChanceMul.Some? && st.newItemChanceMul.value >= 1.0 ==> b.policy.newItemChanceMul == st.newItemChanceMul.value
    ensures st.newItemChanceMul.None? || st.newItemChanceMul.value < 1.0 ==> b.policy.newItemChanceMul == 1.0
    ensures b.(policy := Uniform(b.policy.upgradeChance)) == NewUniform(st)
  {
    var uniform := NewUniform(st);
    uniform.(policy := Collection(uniform.policy.upgradeChance, MultiplierSetting(st.newItemChanceMul)))
  }

  /** Drop count and rarity */

  /** getRandomItemsNum: one draw. */
  function ItemsNum(b: Booster, s: Draws): (r: Result<Drawn<int>>)
    ensures r.Ok? <==> s.Left() > 0
    ensures r.Ok? ==> r.value.rest == s.Skip(1)
    ensures r.Ok? && b.range.min <= b.range.max ==>
              Round(b.range.min) <= r.value.value <= Round(b.range.max)
  {
    var v :- RandomInt(b.range.min, b.range.max, s);
    RoundBetween(b.range.min, v.value, b.range.max);
    Ok(Drawn(Round(v.value), v.rest))
  }

  lemma RoundBetween(lo: real, v: real, hi: real)
    ensures lo <= v <= hi ==> Round(lo) <= Round(v) <= Round(hi)
  {
    if lo <= v <= hi {
      RoundMonotone(lo, v);
      RoundMonotone(v, hi);
    }
  }

  /** With whole-number bounds the count is one of them or in between. */
  lemma ItemsNumInRange(b: Booster, s: Draws, lo: int, hi: int)
    requires s.Left() > 0
    requires b.range == CountRange(lo as real, hi as real) && lo <= hi
    ensures ItemsNum(b, s).Ok?
    ensures lo <= ItemsNum(b, s).value.value <= hi
  {
    RoundOfInteger(lo);
    RoundOfInteger(hi);
  }

  /** The draw window of each count: the count is `c` exactly when the draw,
      stretched over the range, lies within half a unit of `c`. With whole
      bounds the two end counts get half-width windows, as the end keys of
      the id pick do. */
  lemma ItemsNumWindow(b: Booster, s: Draws, c: int)
    requires s.Left() > 0
    ensures ItemsNum(b, s).Ok?
    ensures ItemsNum(b, s).value.value == c
            <==> c as real - 0.5 <= s.Ahead(0) * (b.range.max - b.range.min) + b.range.min < c as real + 0.5
  {
    var v := RandomInt(b.range.min, b.range.max, s).value.value;
    assert ItemsNum(b, s).value.value == Round(v);
    RoundIsIff(v, c);
  }

  /** getRandomRarity: at most one draw, taken only when there is no guarantee
      counter. The counter is the only part of the booster that changes. */
  function RandomRarity(b: Booster, s: Draws): (r: Result<Step<Rarity>>)
    ensures r.Err? ==> r == Err(DrawsExhausted) && s.Left() == 0
    ensures r.Ok? ==> r.value.booster == b.(guarantee := r.value.booster.guarantee)
    ensures r.Ok? ==> RarityOrdinal(r.value.value) <= RarityOrdinal(b.rarity)
    ensures b.rarity == Common ==> r == Ok(Step(Common, b, s))
    ensures b.rarity != Common && b.guarantee.None? ==>
              && (r.Ok? <==> s.Left() > 0)
              && (r.Ok? ==> && RarityOrdinal(b.rarity) - 1 <= RarityOrdinal(r.value.value)
                            && r.value.booster == b && r.value.rest == s.Skip(1))
    ensures b.rarity != Common && b.guarantee.Some? && b.guarantee.value > 0 ==>
              r == Ok(Step(b.rarity, b.(guarantee := Some(b.guarantee.value - 1)), s))
    ensures b.rarity != Common && b.guarantee.Some? && b.guarantee.value <= 0 ==>
              r.Ok? && r.value.rest == s && r.value.booster == b
              && RarityOrdinal(r.value.value) == RarityOrdinal(b.rarity) - 1
  {
    var cap := RarityOrdinal(b.rarity);
    if cap <= 0 then
      Ok(Step(Common, b, s))
    else if b.guarantee.None? then
      var v :- RandomInt((cap - 1) as real, cap as real, s);
      RoundedRandomIntInRange(cap - 1, cap, v.value);
      Ok(Step(RarityOf(Round(v.value)), b, v.rest))
    else if b.guarantee.value > 0 then
      Ok(Step(b.rarity, b.(guarantee := Some(b.guarantee.value - 1)), s))
    else
      Ok(Step(RarityOf(cap - 1), b, s))
  }

  /** Without a counter the cap drops exactly when the draw is at least 1/2,
      and the rarity below it otherwise. */
  lemma RarityWindow(b: Booster, s: Draws)
    requires b.rarity != Common && b.guarantee.None? && s.Left() > 0
    ensures RandomRarity(b, s).Ok?
    ensures RandomRarity(b, s).value.value == b.rarity <==> s.Ahead(0) >= 0.5
  {
    var cap := RarityOrdinal(b.rarity);
    var v := RandomInt((cap - 1) as real, cap as real, s).value.value;
    assert v == s.Ahead(0) + (cap - 1) as real;
    RoundIsIff(v, cap);
    RoundedRandomIntInRange(cap - 1, cap, v);
    assert RandomRarity(b, s).value.value == RarityOf(Round(v));
  }

  /** A counter that starts non-negative never becomes negative. */
  lemma GuaranteeStaysNonNegative(b: Booster, s: Draws)
    requires RandomRarity(b, s).Ok?
    requires b.guarantee.Some? && b.guarantee.value >= 0
    ensures RandomRarity(b, s).value.booster.guarantee.Some?
    ensures RandomRarity(b, s).value.booster.guarantee.value >= 0
    ensures RandomRarity(b, s).value.booster.guarantee.value >= b.guarantee.value - 1
  {
  }

  /** Id picking */

  /** Booster.getRandomId: the key at the rounded index `random_int(0, n - 1)`
      of the ascending key list. An empty pool has no key at any index. */
  function BaseRandomId(pool: Pool, s: Draws): (r: Result<Drawn<int>>)
    ensures r.Ok? <==> |pool.Keys| > 0 && s.Left() > 0
    ensures s.Left() > 0 && |pool.Keys| == 0 ==> r == Err(EmptyCandidatePool)
    ensures s.Left() == 0 ==> r == Err(DrawsExhausted)
    ensures r.Ok? ==> r.value.value in pool && r.value.rest == s.Skip(1)
  {
    var ids := SortedKeys(pool.Keys);
    var v :- RandomInt(0.0, (|ids| - 1) as real, s);
    if |ids| == 0 then
      Err(EmptyCandidatePool)
    else
      RoundedRandomIntInRange(0, |ids| - 1, v.value);
      Ok(Drawn(ids[Round(v.value)], v.rest))
  }

  /** The index `Math.round(random_int(0, n - 1))` gives for the draw `d`. */
  function PickIndex(n: int, d: real): int {
    Round(d * (n - 1) as real)
  }

  /** The drawn id is the key at index `Math.round(d * (n - 1))` of the ascending
      key list, `d` being the next draw and `n` the pool size. */
  lemma BaseRandomIdIndex(pool: Pool, s: Draws) returns (k: int)
    requires |pool.Keys| > 0 && s.Left() > 0
    ensures k == PickIndex(|pool.Keys|, s.Ahead(0))
    ensures 0 <= k < |pool.Keys|
    ensures BaseRandomId(pool, s).Ok? && BaseRandomId(pool, s).value.value == SortedKeys(pool.Keys)[k]
  {
    var ids := SortedKeys(pool.Keys);
    var x := s.Ahead(0) * (|pool.Keys| - 1) as real;
    var v := RandomInt(0.0, (|ids| - 1) as real, s).value;
    assert v.value == x by {
      assert v.value == Stretch(s.Ahead(0), (|ids| - 1) as real) + 0.0;
    }
    RoundedRandomIntInRange(0, |ids| - 1, v.value);
    assert BaseRandomId(pool, s) == Ok(Drawn(ids[Round(v.value)], v.rest));
    k := Round(x);
  }

  /** The draw window of each key: the `k`-th smallest key is picked exactly
      when the draw, stretched over `n - 1`, rounds to `k`. The two end keys
      therefore get half-width windows and the inner keys full ones: with keys
      {1, 2, 3} the windows are [0, 0.25), [0.25, 0.75) and [0.75, 1). */
  lemma BaseRandomIdWindow(pool: Pool, s: Draws, k: int)
    requires |pool.Keys| > 0 && s.Left() > 0 && 0 <= k < |pool.Keys|
    ensures BaseRandomId(pool, s).Ok?
    ensures BaseRandomId(pool, s).value.value == SortedKeys(pool.Keys)[k]
            <==> k as real - 0.5 <= s.Ahead(0) * (|pool.Keys| - 1) as real < k as real + 0.5
  {
    var i := BaseRandomIdIndex(pool, s);
    KeyWindow(pool.Keys, i, k, s.Ahead(0) * (|pool.Keys| - 1) as real);
  }

  /** The key at the rounded index `i` of `x` is the `k`-th exactly when `x`
      rounds to `k`. */
  lemma KeyWindow(ks: set<int>, i: int, k: int, x: real)
    requires 0 <= i < |ks| && 0 <= k < |ks| && i == Round(x)
    ensures SortedKeys(ks)[i] == SortedKeys(ks)[k] <==> k as real - 0.5 <= x < k as real + 0.5
  {
    RoundIsIff(x, k);
    if SortedKeys(ks)[i] == SortedKeys(ks)[k] {
      SortedKeysDistinct(ks, i, k);
    }
  }

  /** The owned counts of a collection booster's candidates, in ascending id order. */
  function OwnedInOrder(b: Booster): (counts: seq<int>)
    ensures var ids := SortedKeys(b.pool.Keys);
            |counts| == |ids| && forall k :: 0 <= k < |ids| ==> counts[k] == Owned(b.inventory, b.loot, ids[k])
  {
    var ids := SortedKeys(b.pool.Keys);
    var owned := OwnedCounts(b.pool.Keys, b.inventory, b.loot);
    seq(|ids|, k requires 0 <= k < |ids| => owned[ids[k]])
  }

  /** The weights CollectionBooster.getRandomId passes to random_distribution. */
  function CollectionWeights(b: Booster): (w: seq<JsNumber>)
    requires b.policy.Collection?
    ensures |w| == |b.pool.Keys|
  {
    NoveltyWeights(OwnedInOrder(b), b.policy.newItemChanceMul)
  }

  /** The default `accuracy` of random_distribution. */
  const DefaultAccuracy: nat := 5

  /** CollectionBooster.getRandomId: the key at the index random_distribution
      selects with the novelty weights. */
  function CollectionRandomId(b: Booster, s: Draws): (r: Result<Drawn<int>>)
    requires b.policy.Collection?
    ensures r.Ok? ==> r.value.value in b.pool && s.Left() > 0 && r.value.rest == s.Skip(1)
    ensures |b.pool.Keys| == 0 ==> r == Err(EmptyWeights)
  {
    var ids := SortedKeys(b.pool.Keys);
    var i :- RandomDistribution(CollectionWeights(b), DefaultAccuracy, s);
    Ok(Drawn(ids[i.value], i.rest))
  }

  lemma WithinAccuracyOne(accuracy: nat)
    ensures SumWithinAccuracy(1.0, accuracy)
  {
  }

  /** With a non-zero multiplier the weights always pass validation, so the
      collection booster fails only on an empty pool or an empty stream. */
  lemma CollectionRandomIdOk(b: Booster, s: Draws)
    requires b.policy.Collection? && b.policy.newItemChanceMul != 0.0
    ensures CollectionRandomId(b, s).Ok? <==> |b.pool.Keys| > 0 && s.Left() > 0
    ensures |b.pool.Keys| > 0 && CollectionRandomId(b, s).Err? ==> CollectionRandomId(b, s).error == DrawsExhausted
  {
    var rd := RandomDistribution(CollectionWeights(b), DefaultAccuracy, s);
    assert rd.Err? ==> CollectionRandomId(b, s) == Err(rd.error);
    assert rd.Ok? ==> CollectionRandomId(b, s).Ok?;
    if |b.pool.Keys| > 0 {
      CollectionWeightsAccepted(b);
    }
  }

  /** The novelty weights of a non-empty pool pass both tests of random_distribution. */
  lemma CollectionWeightsAccepted(b: Booster)
    requires b.policy.Collection? && b.policy.newItemChanceMul != 0.0 && |b.pool.Keys| > 0
    ensures AllFinite(CollectionWeights(b))
    ensures SumWithinAccuracy(Sum(Values(CollectionWeights(b))), DefaultAccuracy)
  {
    NoveltyWeightsSumToOne(OwnedInOrder(b), b.policy.newItemChanceMul);
    WithinAccuracyOne(DefaultAccuracy);
  }

  /** The id a collection booster draws is the key whose index random_distribution
      selects, with the novelty weights, for the next draw. */
  lemma CollectionRandomIdSelects(b: Booster, s: Draws)
    requires b.policy.Collection? && CollectionRandomId(b, s).Ok?
    ensures AllFinite(CollectionWeights(b))
    ensures exists i :: && 0 <= i < |b.pool.Keys|
                        && CollectionRandomId(b, s).value.value == SortedKeys(b.pool.Keys)[i]
                        && IsSelected(Values(CollectionWeights(b)), s.Ahead(0), i)
  {
    var i := RandomDistribution(CollectionWeights(b), DefaultAccuracy, s).value.value;
    assert CollectionRandomId(b, s).value.value == SortedKeys(b.pool.Keys)[i];
  }

  /** A zero multiplier, which the constructor never leaves, makes every
      weight 0/0 and random_distribution rejects them. */
  lemma CollectionZeroMultiplier(b: Booster, s: Draws)
    requires b.policy.Collection? && b.policy.newItemChanceMul == 0.0 && |b.pool.Keys| > 0
    ensures CollectionRandomId(b, s) == Err(InvalidWeights)
  {
    NoveltyWeightsFinite(OwnedInOrder(b), 0.0);
  }

  /** The multiplier of a collection booster is not 0, as its constructor
      ensures; no other class has one. */
  predicate MultiplierSet(b: Booster) {
    b.policy.Collection? ==> b.policy.newItemChanceMul != 0.0
  }

  /** The errors a pick can end with once the multiplier is set: the stream
      ran out, or the pool was empty, which the base pick and
      random_distribution report differently. */
  function PickErrors(p: Policy): set<Error> {
    if p.Collection? then {DrawsExhausted, EmptyWeights} else {DrawsExhausted, EmptyCandidatePool}
  }

  /** `this.getRandomId()`, dispatched on the class. */
  function RandomId(b: Booster, s: Draws): (r: Result<Drawn<int>>)
    ensures r.Ok? ==> r.value.value in b.pool && s.Left() > 0 && r.value.rest == s.Skip(1)
  {
    match b.policy
    case Collection(_, _) => CollectionRandomId(b, s)
    case _ => BaseRandomId(b.pool, s)
  }

  /** With the multiplier set, the pick fails exactly on an empty pool or an
      exhausted stream, with one of the errors of its class; a zero
      multiplier always fails. */
  lemma RandomIdOutcome(b: Booster, s: Draws)
    ensures MultiplierSet(b) ==> (RandomId(b, s).Ok? <==> |b.pool.Keys| > 0 && s.Left() > 0)
    ensures MultiplierSet(b) && RandomId(b, s).Err? ==> RandomId(b, s).error in PickErrors(b.policy)
    ensures MultiplierSet(b) && |b.pool.Keys| > 0 && RandomId(b, s).Err? ==> RandomId(b, s).error == DrawsExhausted
    ensures !MultiplierSet(b) ==> RandomId(b, s).Err?
  {
    if b.policy.Collection? {
      assert RandomId(b, s) == CollectionRandomId(b, s);
      if b.policy.newItemChanceMul != 0.0 {
        CollectionRandomIdOk(b, s);
      } else if |b.pool.Keys| > 0 {
        CollectionZeroMultiplier(b, s);
      }
    } else {
      assert RandomId(b, s) == BaseRandomId(b.pool, s);
    }
  }

  /** Drops */

  /** `it` is a copy, up to rarity, of some entry of `pool`. The copy takes the
      entry's own `ID` field, which the pool does not force to equal its key. */
  predicate DrawnFrom(it: Item, pool: Pool) {
    exists id :: id in pool && CopyOf(it, pool[id])
  }

  /** Booster.getRandomItem: a new item built from the pool entry of the
      drawn id with the drawn rarity. The pool entry itself is not changed. */
  function BaseRandomItem(b: Booster, s: Draws): (r: Result<Step<Item>>)
    ensures r.Ok? ==> && RandomId(b, s).Ok? && RandomId(b, s).value.value in b.pool
                      && CopyOf(r.value.value, b.pool[RandomId(b, s).value.value])
    ensures r.Ok? ==> DrawnFrom(r.value.value, b.pool)
    ensures r.Ok? ==> r.value.rest.at <= s.at + 2
    ensures r.Ok? ==> r.value.booster == b.(guarantee := r.value.booster.guarantee)
    ensures r.Ok? ==> RarityOrdinal(r.value.value.rarity) <= RarityOrdinal(b.rarity)
    ensures r.Ok? ==> LaterOn(r.value.rest, s) && s.at < r.value.rest.at
    ensures r.Ok? ==> s.Left() > 0 && RandomRarity(b, s.Skip(1)).Ok?
                      && r.value.value.rarity == RandomRarity(b, s.Skip(1)).value.value
                      && r.value.booster == RandomRarity(b, s.Skip(1)).value.booster
                      && r.value.rest == RandomRarity(b, s.Skip(1)).value.rest
  {
    var id :- RandomId(b, s);
    var rarity :- RandomRarity(b, id.rest);
    var src := b.pool[id.value];
    Ok(Step(NewItem(ItemSettings(src.id, src.name, Some(rarity.value), src.itemType)), rarity.booster, rarity.rest))
  }

  /** The base drop fails when its id pick does, and otherwise only when no
      draw is left for the rarity. */
  lemma BaseRandomItemFails(b: Booster, s: Draws)
    ensures RandomId(b, s).Err? ==> BaseRandomItem(b, s) == Err(RandomId(b, s).error)
    ensures RandomId(b, s).Ok? && BaseRandomItem(b, s).Err? ==> BaseRandomItem(b, s) == Err(DrawsExhausted) && s.Left() < 2
  {
    var id := RandomId(b, s);
    if id.Ok? {
      assert id.value.rest == s.Skip(1);
      var rarity := RandomRarity(b, id.value.rest);
      if rarity.Err? {
        assert BaseRandomItem(b, s) == Err(DrawsExhausted);
      }
    }
  }

  /** A base drop with the multiplier set fails on an empty pool, and on a
      non-empty one only for lack of draws, never with two draws left; a
      zero multiplier always fails. */
  lemma BaseRandomItemOutcome(b: Booster, s: Draws)
    ensures !MultiplierSet(b) || |b.pool.Keys| == 0 ==> BaseRandomItem(b, s).Err?
    ensures MultiplierSet(b) && |b.pool.Keys| > 0 ==> (BaseRandomItem(b, s).Ok? || BaseRandomItem(b, s) == Err(DrawsExhausted))
    ensures MultiplierSet(b) && |b.pool.Keys| > 0 && s.Left() >= 2 ==> BaseRandomItem(b, s).Ok?
    ensures MultiplierSet(b) && BaseRandomItem(b, s).Err? ==> BaseRandomItem(b, s).error in PickErrors(b.policy)
  {
    RandomIdOutcome(b, s);
    BaseRandomItemFails(b, s);
  }

  /** LuckBooster.isRarityUpgradable: levels outside [0, 5] toss no coin. */
  function IsRarityUpgradable(chance: real, level: int, s: Draws): (r: Result<Drawn<bool>>)
    ensures level < 0 || level > ItemTypeCount ==> r == Ok(Drawn(false, s))
    ensures 0 <= level <= ItemTypeCount ==> (r.Ok? <==> s.Left() >= 2)
    ensures 0 <= level <= ItemTypeCount && r.Ok? ==>
              && r.value.rest == s.Skip(2)
              && (r.value.value <==> CoinLands(Pow(chance, level), s.Ahead(0), s.Ahead(1)))
  {
    if level < 0 || level > ItemTypeCount then
      Ok(Drawn(false, s))
    else
      RandomCoin(Pow(chance, level), s)
  }

  /** The coin tossed at level `l` of a loop that started at level `i` on the
      draws `s` wins: it is tossed on the two draws `2 * (l - i)` places on. */
  predicate WinsAt(chance: real, i: int, s: Draws, l: int)
    requires 0 <= i <= l && 2 * (l - i) + 1 < s.Left()
  {
    CoinLands(Pow(chance, l), s.Ahead(2 * (l - i)), s.Ahead(2 * (l - i) + 1))
  }

  /** Every coin of the loop from level `i` below level `j` is tossed and lost. */
  predicate LostBelow(chance: real, i: int, s: Draws, j: int)
    requires 0 <= i <= j && 2 * (j - i) <= s.Left()
  {
    forall l :: i <= l < j ==> !WinsAt(chance, i, s, l)
  }

  /** The coins of a loop that starts one level later on the draws after the
      first toss are the coins of this loop from its second level on. */
  lemma LostBelowShift(chance: real, i: int, s: Draws)
    requires 0 <= i && 2 <= s.Left() && !WinsAt(chance, i, s, i)
    ensures forall j :: i + 1 <= j && 2 * (j - i) <= s.Left() && LostBelow(chance, i + 1, s.Skip(2), j) ==> LostBelow(chance, i, s, j)
  {
    forall j | i + 1 <= j && 2 * (j - i) <= s.Left() && LostBelow(chance, i + 1, s.Skip(2), j)
      ensures LostBelow(chance, i, s, j)
    {
      forall l | i < l < j
        ensures !WinsAt(chance, i, s, l)
      {
        assert !WinsAt(chance, i + 1, s.Skip(2), l);
        assert s.Skip(2).Ahead(2 * (l - i - 1)) == s.Ahead(2 * (l - i));
        assert s.Skip(2).Ahead(2 * (l - i - 1) + 1) == s.Ahead(2 * (l - i) + 1);
      }
    }
  }

  /** The loop of LuckBooster.getRandomItem from level `i` on, for an item of
      rarity ordinal `ord`: the first level whose coin wins raises the rarity
      by that many steps, and the loop stops there. */
  function UpgradeFrom(ord: int, i: int, chance: real, s: Draws): (r: Result<Drawn<int>>)
    requires 0 <= ord <= TopRarity && 1 <= i
    ensures r.Ok? ==> ord <= r.value.value <= TopRarity && LaterOn(r.value.rest, s)
    ensures r.Ok? ==> (r.value.rest.at - s.at) % 2 == 0
    ensures r.Err? ==> r.error == DrawsExhausted
    ensures s.Left() >= 2 * (TopRarity + 1 - i) ==> r.Ok?
    decreases TopRarity + 1 - i
  {
    if i > TopRarity - ord then
      Ok(Drawn(ord, s))
    else
      var up :- IsRarityUpgradable(chance, i, s);
      if up.value then
        Ok(Drawn(ord + i, up.rest))
      else
        UpgradeFrom(ord, i + 1, chance, up.rest)
  }

  /** The loop from level `i` tosses at most one coin, two draws, per level
      up to the top, and none past it. */
  lemma {:induction false} UpgradeDraws(ord: int, i: int, chance: real, s: Draws)
    requires 0 <= ord <= TopRarity && 1 <= i
    ensures UpgradeFrom(ord, i, chance, s).Ok? && i <= TopRarity ==>
              UpgradeFrom(ord, i, chance, s).value.rest.at <= s.at + 2 * (TopRarity + 1 - i)
    ensures UpgradeFrom(ord, i, chance, s).Ok? && i > TopRarity ==> UpgradeFrom(ord, i, chance, s).value.rest == s
    decreases TopRarity + 1 - i
  {
    UpgradeStep(ord, i, chance, s);
    if i <= TopRarity - ord && s.Left() >= 2 {
      UpgradeDraws(ord, i + 1, chance, s.Skip(2));
    }
  }

  /** One level of the upgrade loop: past the top it stops; otherwise it
      needs two draws, and either the coin at level `i` wins or the loop goes
      on one level up after them. */
  lemma UpgradeStep(ord: int, i: int, chance: real, s: Draws)
    requires 0 <= ord <= TopRarity && 1 <= i
    ensures i > TopRarity - ord ==> UpgradeFrom(ord, i, chance, s) == Ok(Drawn(ord, s))
    ensures i <= TopRarity - ord && s.Left() < 2 ==> UpgradeFrom(ord, i, chance, s).Err?
    ensures i <= TopRarity - ord && s.Left() >= 2 ==>
              UpgradeFrom(ord, i, chance, s)
                == if WinsAt(chance, i, s, i) then Ok(Drawn(ord + i, s.Skip(2))) else UpgradeFrom(ord, i + 1, chance, s.Skip(2))
  {
  }

  /** An upgrade by `j` steps means the coin at level `j` won, every lower
      level was tossed and lost, and exactly those coins were tossed. */
  lemma {:induction false} UpgradeIsFirstWin(ord: int, i: int, chance: real, s: Draws, r: Drawn<int>)
    requires 0 <= ord <= TopRarity && 1 <= i
    requires UpgradeFrom(ord, i, chance, s) == Ok(r) && r.value > ord
    ensures var j := r.value - ord;
            && i <= j && 2 * (j - i) + 1 < s.Left()
            && r.rest == s.Skip(2 * (j - i + 1))
            && WinsAt(chance, i, s, j)
            && LostBelow(chance, i, s, j)
    decreases TopRarity + 1 - i
  {
    UpgradeStep(ord, i, chance, s);
    assert i <= TopRarity - ord && s.Left() >= 2;
    if WinsAt(chance, i, s, i) {
      assert r == Drawn(ord + i, s.Skip(2));
    } else {
      var i1 := i + 1;
      assert UpgradeFrom(ord, i1, chance, s.Skip(2)) == Ok(r);
      UpgradeIsFirstWin(ord, i1, chance, s.Skip(2), r);
      FirstWinShift(ord, chance, i, i1, s, r);
    }
  }

  /** A first win at level `j` of the loop started one level later, after a
      lost coin at level `i`, is a first win at `j` of the loop from `i`. */
  lemma FirstWinShift(ord: int, chance: real, i: int, i1: int, s: Draws, r: Drawn<int>)
    requires 0 <= i && i1 == i + 1 && 2 <= s.Left() && !WinsAt(chance, i, s, i)
    requires var j := r.value - ord;
             && i1 <= j && 2 * (j - i1) + 1 < s.Skip(2).Left()
             && r.rest == s.Skip(2).Skip(2 * (j - i1 + 1))
             && WinsAt(chance, i1, s.Skip(2), j)
             && LostBelow(chance, i1, s.Skip(2), j)
    ensures var j := r.value - ord;
            && i <= j && 2 * (j - i) + 1 < s.Left()
            && r.rest == s.Skip(2 * (j - i + 1))
            && WinsAt(chance, i, s, j)
            && LostBelow(chance, i, s, j)
  {
    var j := r.value - ord;
    LostBelowShift(chance, i, s);
    WinsAtShift(chance, i, s, j);
  }

  lemma WinsAtShift(chance: real, i: int, s: Draws, j: int)
    requires 0 <= i && i + 1 <= j && 2 * (j - i) + 1 < s.Left()
    requires WinsAt(chance, i + 1, s.Skip(2), j)
    ensures WinsAt(chance, i, s, j)
  {
    assert s.Skip(2).Ahead(2 * (j - i - 1)) == s.Ahead(2 * (j - i));
    assert s.Skip(2).Ahead(2 * (j - i - 1) + 1) == s.Ahead(2 * (j - i) + 1);
  }

  /** No upgrade means every level up to the top was tossed and lost. */
  lemma {:induction false} NoUpgradeMeansAllLost(ord: int, i: int, chance: real, s: Draws, r: Drawn<int>)
    requires 0 <= ord <= TopRarity && 1 <= i
    requires UpgradeFrom(ord, i, chance, s) == Ok(r) && r.value == ord
    ensures var last := if TopRarity - ord >= i then TopRarity - ord + 1 else i;
            && 2 * (last - i) <= s.Left()
            && r.rest == s.Skip(2 * (last - i))
            && LostBelow(chance, i, s, last)
    decreases TopRarity + 1 - i
  {
    UpgradeStep(ord, i, chance, s);
    if i <= TopRarity - ord {
      var i1 := i + 1;
      assert UpgradeFrom(ord, i1, chance, s.Skip(2)) == Ok(r);
      NoUpgradeMeansAllLost(ord, i1, chance, s.Skip(2), r);
      AllLostShift(ord, chance, i, i1, s, r);
    }
  }

  /** Every level lost from `i + 1` on, after a lost coin at level `i`, is
      every level lost from `i` on. */
  lemma AllLostShift(ord: int, chance: real, i: int, i1: int, s: Draws, r: Drawn<int>)
    requires 1 <= i <= TopRarity - ord && i1 == i + 1 && 2 <= s.Left() && !WinsAt(chance, i, s, i)
    requires var last := if TopRarity - ord >= i1 then TopRarity - ord + 1 else i1;
             && 2 * (last - i1) <= s.Skip(2).Left()
             && r.rest == s.Skip(2).Skip(2 * (last - i1))
             && LostBelow(chance, i1, s.Skip(2), last)
    ensures var last := if TopRarity - ord >= i then TopRarity - ord + 1 else i;
            && 2 * (last - i) <= s.Left()
            && r.rest == s.Skip(2 * (last - i))
            && LostBelow(chance, i, s, last)
  {
    LostBelowShift(chance, i, s);
  }

  /** The most draws one drop takes: the id, the rarity, and two for each
      level of the upgrade loop. */
  const DropDraws: nat := 2 + 2 * TopRarity

  /** LuckBooster.getRandomItem: the base drop, then the upgrade loop from
      level 1 on its rarity. Only the fresh copy's rarity changes. */
  function LuckRandomItem(b: Booster, s: Draws): (r: Result<Step<Item>>)
    requires !b.policy.Plain?
    ensures r.Ok? ==> BaseRandomItem(b, s).Ok?
    ensures r.Ok? ==> var base := BaseRandomItem(b, s).value;
              && r.value.value == base.value.(rarity := r.value.value.rarity)
              && RarityOrdinal(base.value.rarity) <= RarityOrdinal(r.value.value.rarity)
              && r.value.booster == base.booster
              && LaterOn(r.value.rest, base.rest)
              && (base.value.rarity == Legendary ==> r.value.value == base.value && r.value.rest == base.rest)
    ensures r.Ok? ==> var base := BaseRandomItem(b, s).value;
              UpgradeFrom(RarityOrdinal(base.value.rarity), 1, b.policy.upgradeChance, base.rest)
                == Ok(Drawn(RarityOrdinal(r.value.value.rarity), r.value.rest))
    ensures r.Ok? ==> LaterOn(r.value.rest, s) && s.at < r.value.rest.at
  {
    var it :- BaseRandomItem(b, s);
    var up :- UpgradeFrom(RarityOrdinal(it.value.rarity), 1, b.policy.upgradeChance, it.rest);
    Ok(Step(it.value.(rarity := RarityOf(up.value)), it.booster, up.rest))
  }

  /** A luck drop fails with the base drop's error, or for lack of draws
      after it; it takes at most `DropDraws` draws, so that many always do. */
  lemma LuckRandomItemOutcome(b: Booster, s: Draws)
    requires !b.policy.Plain?
    ensures LuckRandomItem(b, s).Ok? ==> LuckRandomItem(b, s).value.rest.at <= s.at + DropDraws
    ensures BaseRandomItem(b, s).Err? ==> LuckRandomItem(b, s).Err? && LuckRandomItem(b, s).error == BaseRandomItem(b, s).error
    ensures BaseRandomItem(b, s).Ok? ==> (LuckRandomItem(b, s).Ok? || LuckRandomItem(b, s) == Err(DrawsExhausted))
    ensures BaseRandomItem(b, s).Ok? && s.Left() >= DropDraws ==> LuckRandomItem(b, s).Ok?
  {
    var base := BaseRandomItem(b, s);
    if base.Ok? {
      UpgradeDraws(RarityOrdinal(base.value.value.rarity), 1, b.policy.upgradeChance, base.value.rest);
    }
  }

  /** The item types already in the loot: `new Set(booster_loot.map(i => i.itemType))`. */
  function UsedTypes(loot: seq<Item>): (used: set<ItemType>)
    ensures forall k :: 0 <= k < |loot| ==> loot[k].itemType in used
  {
    set k | 0 <= k < |loot| :: loot[k].itemType
  }

  /** A type is used exactly when some drop of the loot has it. */
  lemma UsedTypesExact(loot: seq<Item>, t: ItemType)
    ensures t in UsedTypes(loot) <==> exists k :: 0 <= k < |loot| && loot[k].itemType == t
  {
  }

  /** The entries of `pool` whose type is not in `used`. */
  function NarrowPool(pool: Pool, used: set<ItemType>): (p: Pool)
    ensures forall id :: id in p <==> id in pool && pool[id].itemType !in used
    ensures forall id :: id in p ==> p[id] == pool[id]
  {
    map id | id in pool && pool[id].itemType !in used :: pool[id]
  }

  /** The pool UniformBooster.getRandomItem draws from: narrowed to the unused
      types unless the loot already holds exactly four distinct types. */
  function Candidates(b: Booster): (p: Pool)
    ensures p.Keys <= b.pool.Keys
    ensures forall id :: id in p <==> && id in b.pool
                                      && (|UsedTypes(b.loot)| == CoverageTarget || b.pool[id].itemType !in UsedTypes(b.loot))
    ensures forall id :: id in p ==> p[id] == b.pool[id]
  {
    var used := UsedTypes(b.loot);
    if |used| != CoverageTarget then NarrowPool(b.pool, used) else b.pool
  }

  /** UniformBooster.getRandomItem: the Luck drop from the candidate pool,
      after which the original pool is put back. */
  function UniformRandomItem(b: Booster, s: Draws): (r: Result<Step<Item>>)
    requires (b.policy.Uniform? || b.policy.Collection?)
    ensures r.Ok? ==> r.value.booster == b.(guarantee := r.value.booster.guarantee)
    ensures r.Ok? ==> DrawnFrom(r.value.value, Candidates(b))
    ensures r.Ok? && |UsedTypes(b.loot)| != CoverageTarget ==> r.value.value.itemType !in UsedTypes(b.loot)
    ensures |Candidates(b).Keys| == 0 ==> r.Err?
    ensures r.Ok? ==> LaterOn(r.value.rest, s) && s.at < r.value.rest.at
    ensures var luck := LuckRandomItem(b.(pool := Candidates(b)), s);
            && (r.Ok? <==> luck.Ok?)
            && (r.Ok? ==> r.value.value == luck.value.value && r.value.rest == luck.value.rest)
            && (r.Err? ==> r.error == luck.error)
  {
    var candidates := Candidates(b);
    var it :- LuckRandomItem(b.(pool := candidates), s);
    Ok(Step(it.value, it.booster.(pool := b.pool), it.rest))
  }

  /** A candidate is an entry of the full pool. */
  lemma CandidateInPool(b: Booster, it: Item)
    requires DrawnFrom(it, Candidates(b))
    ensures DrawnFrom(it, b.pool)
  {
    var used := UsedTypes(b.loot);
    var id :| id in Candidates(b) && CopyOf(it, Candidates(b)[id]);
    if |used| != CoverageTarget {
      assert Candidates(b)[id] == b.pool[id];
    }
  }

  /** The pool a drop is drawn from: the candidates for the uniform and
      collection boosters, the whole pool otherwise. */
  function DrawPool(b: Booster): (p: Pool)
    ensures p.Keys <= b.pool.Keys
    ensures forall id :: id in p ==> p[id] == b.pool[id]
  {
    if b.policy.Uniform? || b.policy.Collection? then Candidates(b) else b.pool
  }

  /** A drop can succeed: the pool it is drawn from is not empty and the
      multiplier is set. */
  predicate CanDraw(b: Booster) {
    MultiplierSet(b) && |DrawPool(b).Keys| > 0
  }

  /** `this.getRandomItem()`, dispatched on the class. */
  function GetRandomItem(b: Booster, s: Draws): (r: Result<Step<Item>>)
    ensures r.Ok? ==> DrawnFrom(r.value.value, b.pool)
    ensures r.Ok? ==> r.value.booster == b.(guarantee := r.value.booster.guarantee)
    ensures r.Ok? ==> LaterOn(r.value.rest, s) && s.at < r.value.rest.at
  {
    match b.policy
    case Plain => BaseRandomItem(b, s)
    case Luck(_) => LuckRandomItem(b, s)
    case _ =>
      var r := UniformRandomItem(b, s);
      if r.Ok? then
        CandidateInPool(b, r.value.value);
        r
      else
        r
  }

  /** Whatever the class, the drop copies the pool entry of the id the class
      picks from the pool it draws on, and takes at most `DropDraws` draws. */
  lemma GetRandomItemPicks(b: Booster, s: Draws)
    requires GetRandomItem(b, s).Ok?
    ensures var id := RandomId(b.(pool := DrawPool(b)), s);
            && id.Ok? && id.value.value in b.pool
            && CopyOf(GetRandomItem(b, s).value.value, b.pool[id.value.value])
    ensures GetRandomItem(b, s).value.rest.at <= s.at + DropDraws
  {
    if b.policy.Plain? {
      assert b.(pool := DrawPool(b)) == b;
    } else if b.policy.Luck? {
      assert b.(pool := DrawPool(b)) == b;
      LuckRandomItemOutcome(b, s);
    } else {
      LuckRandomItemOutcome(b.(pool := Candidates(b)), s);
    }
  }

  /** A drop fails whenever no drop can succeed; otherwise it fails only for
      lack of draws, and never with `DropDraws` draws left. With the
      multiplier set, its errors are those of the class's pick. */
  lemma GetRandomItemOutcome(b: Booster, s: Draws)
    ensures !CanDraw(b) ==> GetRandomItem(b, s).Err?
    ensures CanDraw(b) ==> (GetRandomItem(b, s).Ok? || GetRandomItem(b, s) == Err(DrawsExhausted))
    ensures CanDraw(b) && s.Left() >= DropDraws ==> GetRandomItem(b, s).Ok?
    ensures MultiplierSet(b) && GetRandomItem(b, s).Err? ==> GetRandomItem(b, s).error in PickErrors(b.policy)
  {
    var d := b.(pool := DrawPool(b));
    assert MultiplierSet(d) == MultiplierSet(b) && PickErrors(d.policy) == PickErrors(b.policy);
    BaseRandomItemOutcome(d, s);
    if !b.policy.Plain? {
      LuckRandomItemOutcome(d, s);
    }
    if b.policy.Plain? || b.policy.Luck? {
      assert d == b;
    }
  }

  /** The booster after `booster_loot.push` of the drop `it`. */
  function Pushed(it: Step<Item>): (b: Booster)
    ensures b.loot == it.booster.loot + [it.value]
  {
    it.booster.(loot := it.booster.loot + [it.value])
  }

  /** The number of drops the loop still owes once one of `k` is drawn. */
  function Remaining(k: nat): (m: nat)
    requires k > 0
    ensures m < k
  {
    k - 1
  }

  /** The base and luck boosters draw every drop from the whole pool, which
      no drop changes, so a drop that can succeed once always can. */
  predicate DrawsWholePool(b: Booster) {
    (b.policy.Plain? || b.policy.Luck?) && |b.pool.Keys| > 0
  }

  /** The loop of getBoosterLoot: `k` drops, each pushed onto the loot before
      the next is drawn. */
  function DrawItems(b: Booster, k: nat, s: Draws): (r: Result<Step<seq<Item>>>)
    ensures r.Ok? ==> |r.value.value| == k
    ensures r.Ok? ==> r.value.booster == b.(guarantee := r.value.booster.guarantee, loot := b.loot + r.value.value)
    ensures r.Ok? ==> forall j :: 0 <= j < |r.value.value| ==> DrawnFrom(r.value.value[j], b.pool)
    ensures r.Ok? ==> LaterOn(r.value.rest, s)
    decreases k
  {
    if k == 0 then
      Ok(Step([], b, s))
    else
      var it :- GetRandomItem(b, s);
      var more :- DrawItems(Pushed(it), Remaining(k), it.rest);
      JoinDraws(b, it, more);
      Ok(Step([it.value] + more.value, more.booster, more.rest))
  }

  /** `k` drops take at most `DropDraws` draws each. */
  lemma {:induction false} DrawItemsDraws(b: Booster, k: nat, s: Draws)
    ensures DrawItems(b, k, s).Ok? ==> DrawItems(b, k, s).value.rest.at <= s.at + DropDraws * k
    decreases k
  {
    if k > 0 {
      var it := GetRandomItem(b, s);
      if it.Ok? {
        GetRandomItemPicks(b, s);
        DrawItemsDraws(Pushed(it.value), Remaining(k), it.value.rest);
      }
    }
  }

  /** With the multiplier set the loop of `k` drops fails only with the
      errors of the class's pick; a base or luck booster fails only for lack
      of draws, and never with `DropDraws * k` draws left. */
  lemma {:induction false} DrawItemsOutcome(b: Booster, k: nat, s: Draws)
    ensures MultiplierSet(b) && DrawItems(b, k, s).Err? ==> DrawItems(b, k, s).error in PickErrors(b.policy)
    ensures DrawsWholePool(b) ==> (DrawItems(b, k, s).Ok? || DrawItems(b, k, s) == Err(DrawsExhausted))
    ensures DrawsWholePool(b) && s.Left() >= DropDraws * k ==> DrawItems(b, k, s).Ok?
    decreases k
  {
    if k > 0 {
      var it := GetRandomItem(b, s);
      GetRandomItemOutcome(b, s);
      if it.Ok? {
        GetRandomItemPicks(b, s);
        var next := Pushed(it.value);
        assert next.policy == b.policy && next.pool == b.pool;
        DrawItemsOutcome(next, Remaining(k), it.value.rest);
      }
    }
  }

  /** One drop followed by the drops drawn after pushing it: together they are
      drawn from the same pool and extend the loot of `b` in order. */
  lemma JoinDraws(b: Booster, it: Step<Item>, more: Step<seq<Item>>)
    requires DrawnFrom(it.value, b.pool)
    requires it.booster == b.(guarantee := it.booster.guarantee)
    requires more.booster == Pushed(it).(guarantee := more.booster.guarantee, loot := Pushed(it).loot + more.value)
    requires forall j :: 0 <= j < |more.value| ==> DrawnFrom(more.value[j], Pushed(it).pool)
    ensures more.booster == b.(guarantee := more.booster.guarantee, loot := b.loot + ([it.value] + more.value))
    ensures forall j :: 0 <= j < |[it.value] + more.value| ==> DrawnFrom(([it.value] + more.value)[j], b.pool)
  {
    assert Pushed(it).pool == b.pool;
    assert Pushed(it).loot + more.value == b.loot + ([it.value] + more.value);
    DrawnFromEach(it.value, more.value, b.pool);
  }

  lemma DrawnFromEach(first: Item, more: seq<Item>, pool: Pool)
    requires DrawnFrom(first, pool) && forall j :: 0 <= j < |more| ==> DrawnFrom(more[j], pool)
    ensures forall j :: 0 <= j < |[first] + more| ==> DrawnFrom(([first] + more)[j], pool)
  {
    forall j | 0 <= j < |[first] + more|
      ensures DrawnFrom(([first] + more)[j], pool)
    {
      if j > 0 {
        assert ([first] + more)[j] == more[j - 1];
      }
    }
  }

  lemma DrawnAfter(before: seq<Item>, drawn: seq<Item>, pool: Pool)
    requires forall j :: 0 <= j < |drawn| ==> DrawnFrom(drawn[j], pool)
    ensures forall k :: |before| <= k < |before + drawn| ==> DrawnFrom((before + drawn)[k], pool)
  {
    forall k | |before| <= k < |before + drawn|
      ensures DrawnFrom((before + drawn)[k], pool)
    {
      assert (before + drawn)[k] == drawn[k - |before|];
    }
  }

  /** getBoosterLoot: nothing at all for an empty pool; otherwise the drawn
      number of drops, after which the inventory is cleared and the WHOLE
      loot history is returned. */
  function Open(b: Booster, inventory: Option<Inventory>, s: Draws): (r: Result<Step<seq<Item>>>)
    ensures |b.pool.Keys| == 0 ==> r == Ok(Step([], b, s))
    ensures |b.pool.Keys| > 0 && r.Ok? ==>
              && r.value.value == r.value.booster.loot
              && b.loot <= r.value.value
              && r.value.booster == b.(guarantee := r.value.booster.guarantee, loot := r.value.value, inventory := map[])
              && (b.range.Valid() ==>
                    Round(b.range.min) <= |r.value.value| - |b.loot| <= Round(b.range.max))
    ensures r.Ok? ==> forall k :: |b.loot| <= k < |r.value.value| ==> DrawnFrom(r.value.value[k], b.pool)
    ensures r.Ok? ==> LaterOn(r.value.rest, s)
  {
    if |b.pool.Keys| == 0 then
      Ok(Step([], b, s))
    else
      var withInventory := b.(inventory := inventory.GetOr(map[]));
      var n :- ItemsNum(withInventory, s);
      var count := if n.value < 0 then 0 else n.value;
      var drawn :- DrawItems(withInventory, count, n.rest);
      var after := drawn.booster.(inventory := map[]);
      DrawnAfter(b.loot, drawn.value, b.pool);
      Ok(Step(after.loot, after, drawn.rest))
  }

  /** An opening of a non-empty pool adds exactly the drawn number of drops,
      a negative number counting as none; the count comes from the first draw. */
  lemma OpenDrawsCount(b: Booster, inventory: Option<Inventory>, s: Draws)
    requires |b.pool.Keys| > 0 && Open(b, inventory, s).Ok?
    ensures ItemsNum(b, s).Ok?
    ensures var n := ItemsNum(b, s).value.value;
            |Open(b, inventory, s).value.value| - |b.loot| == if n < 0 then 0 else n
  {
    var withInventory := b.(inventory := inventory.GetOr(map[]));
    assert ItemsNum(withInventory, s) == ItemsNum(b, s);
  }

  /** An opening of a non-empty pool is the drop loop run, for the drawn
      count, on the booster with the caller's inventory attached; its loot is
      the old loot followed by those drops, and the inventory is cleared
      afterwards. */
  lemma OpenIsDrawItems(b: Booster, inventory: Option<Inventory>, s: Draws)
    requires |b.pool.Keys| > 0 && Open(b, inventory, s).Ok?
    ensures ItemsNum(b, s).Ok?
    ensures var n := ItemsNum(b, s).value;
            var drawn := DrawItems(b.(inventory := inventory.GetOr(map[])), if n.value < 0 then 0 else n.value, n.rest);
            var r := Open(b, inventory, s).value;
            && drawn.Ok?
            && r.value == b.loot + drawn.value.value
            && r.booster == drawn.value.booster.(inventory := map[])
            && r.rest == drawn.value.rest
  {
    var withInventory := b.(inventory := inventory.GetOr(map[]));
    assert ItemsNum(withInventory, s) == ItemsNum(b, s);
  }

  /** With the multiplier set an opening fails only with the errors of the
      class's pick; a base or luck opening fails only for lack of draws. */
  lemma OpenOutcome(b: Booster, inventory: Option<Inventory>, s: Draws)
    ensures MultiplierSet(b) && Open(b, inventory, s).Err? ==> Open(b, inventory, s).error in PickErrors(b.policy)
    ensures DrawsWholePool(b) ==> (Open(b, inventory, s).Ok? || Open(b, inventory, s) == Err(DrawsExhausted))
  {
    if |b.pool.Keys| > 0 {
      var withInventory := b.(inventory := inventory.GetOr(map[]));
      var n := ItemsNum(withInventory, s);
      if n.Ok? {
        var count := if n.value.value < 0 then 0 else n.value.value;
        DrawItemsOutcome(withInventory, count, n.value.rest);
      }
    }
  }

  /** A base or luck opening succeeds whenever the stream holds the count
      draw and the draws of the largest count the range allows. */
  lemma OpenSucceeds(b: Booster, inventory: Option<Inventory>, s: Draws)
    requires DrawsWholePool(b) && b.range.Valid()
    requires s.Left() > DropDraws * Round(b.range.max)
    ensures Open(b, inventory, s).Ok?
  {
    var withInventory := b.(inventory := inventory.GetOr(map[]));
    var n := ItemsNum(withInventory, s).value;
    RoundMonotone(0.0, b.range.max);
    RoundOfInteger(0);
    var count := if n.value < 0 then 0 else n.value;
    assert count <= Round(b.range.max);
    assert n.rest.Left() >= DropDraws * count;
    DrawItemsOutcome(withInventory, count, n.rest);
  }

  /** A set inside another is no larger. */
  lemma SubsetNoLarger<T>(a: set<T>, b: set<T>)
    requires a <= b
    ensures |a| <= |b|
  {
    if a != {} {
      var x :| x in a;
      SubsetNoLarger(a - {x}, b - {x});
    }
  }

  /** Once the loot holds all five item types, every type is used. */
  lemma AllTypesUsed(loot: seq<Item>, t: ItemType)
    requires |UsedTypes(loot)| == ItemTypeCount
    ensures t in UsedTypes(loot)
  {
    var others := {Unknown, Helmet, Weapon, Shield, Armor} - {t};
    if t !in UsedTypes(loot) {
      forall u | u in UsedTypes(loot)
        ensures u in others
      {
        assert u.Unknown? || u.Helmet? || u.Weapon? || u.Shield? || u.Armor?;
      }
      assert |others| == 4;
      SubsetNoLarger(UsedTypes(loot), others);
    }
  }

  /** A uniform or collection booster whose loot holds all five item types
      (counting UNKNOWN) has no candidate left: the narrowing check looks for
      exactly four types and the narrowed pool has no unused type. */
  lemma AllTypesLeaveNoCandidates(b: Booster)
    requires |UsedTypes(b.loot)| == ItemTypeCount
    ensures Candidates(b) == map[]
  {
    forall id | id in b.pool
      ensures id !in Candidates(b)
    {
      AllTypesUsed(b.loot, b.pool[id].itemType);
      assert Candidates(b) == NarrowPool(b.pool, UsedTypes(b.loot));
    }
  }
}

=== FILE: items.dfy ===
/** Rarities, item types and items (item.ts). */
module Items {
  import opened Outcomes

  /** RARITY: ordinals COMMON = 0 < RARE = 1 < EPIC = 2 < LEGENDARY = 3. */
  datatype Rarity = Common | Rare | Epic | Legendary

  /** ITEMTYPE: ordinals UNKNOWN = 0 .. ARMOR = 4. */
  datatype ItemType = Unknown | Helmet | Weapon | Shield | Armor

  /** The members of each enum in declaration order; the position is the ordinal. */
  const Rarities: seq<Rarity> := [Common, Rare, Epic, Legendary]
  const ItemTypes: seq<ItemType> := [Unknown, Helmet, Weapon, Shield, Armor]

  function RarityOrdinal(r: Rarity): (n: nat)
    ensures n < |Rarities| && Rarities[n] == r
  {
    match r
    case Common => 0
    case Rare => 1
    case Epic => 2
    case Legendary => 3
  }

  /** The rarity with ordinal `n`; the only way an arithmetic rarity becomes a value again. */
  function RarityOf(n: int): (r: Rarity)
    requires 0 <= n < |Rarities|
    ensures RarityOrdinal(r) == n
  {
    Rarities[n]
  }

  function ItemTypeOrdinal(t: ItemType): (n: nat)
    ensures n < |ItemTypes| && ItemTypes[n] == t
  {
    match t
    case Unknown => 0
    case Helmet => 1
    case Weapon => 2
    case Shield => 3
    case Armor => 4
  }

  /** `Object.keys(E).length` for a numeric TypeScript enum `E`: the compiled
      enum object maps every name to its ordinal and every ordinal back to its
      name, so each member contributes two keys. */
  function EnumKeyCount(members: nat): nat {
    2 * members
  }

  /** `Object.keys(RARITY).length/2 - 1`: the ceiling of the luck upgrade. */
  const TopRarity: int := 3

  /** `Object.keys(ITEMTYPE).length/2`: the level bound of isRarityUpgradable. */
  const ItemTypeCount: int := 5

  /** `Object.keys(ITEMTYPE).length/2 - 1`: the number of distinct item types
      the uniform booster aims for, and its minimum item count. */
  const CoverageTarget: int := 4

  /** The constants are the source's expressions over the enums, and they are
      the ordinals of the last members. */
  lemma EnumConstants()
    ensures TopRarity == EnumKeyCount(|Rarities|) / 2 - 1 == RarityOrdinal(Legendary)
    ensures forall r: Rarity :: RarityOrdinal(r) <= TopRarity
    ensures ItemTypeCount == EnumKeyCount(|ItemTypes|) / 2 == |ItemTypes|
    ensures CoverageTarget == EnumKeyCount(|ItemTypes|) / 2 - 1 == ItemTypeOrdinal(Armor)
  {
  }

  /** An item. `id` is readonly in the source; a drop is always a new value, so
      the pool entries are never changed. */
  datatype Item = Item(id: int, name: string, rarity: Rarity, itemType: ItemType)

  /** IItemSettings: the rarity may be omitted. */
  datatype ItemSettings = ItemSettings(id: int, name: string, rarity: Option<Rarity>, itemType: ItemType)

  /** `rarity || RARITY.COMMON`: both an omitted rarity and the falsy ordinal 0
      become COMMON, which for 0 is the same value. */
  function RarityOr(given: Option<Rarity>): (r: Rarity)
    ensures r == given.GetOr(Common)
  {
    if given.None? || RarityOrdinal(given.value) == 0 then Common else given.value
  }

  /** The Item constructor. */
  function NewItem(s: ItemSettings): (it: Item)
    ensures it.id == s.id && it.name == s.name && it.itemType == s.itemType
    ensures it.rarity == s.rarity.GetOr(Common)
  {
    Item(s.id, s.name, RarityOr(s.rarity), s.itemType)
  }

  /** `it` carries the identity, name and type of `src`; only the rarity may differ. */
  predicate CopyOf(it: Item, src: Item) {
    it.id == src.id && it.name == src.name && it.itemType == src.itemType
  }
}

=== FILE: keys.dfy ===
/** The order in which JavaScript enumerates the keys of an object whose keys
    are integer-like (an item pool, an inventory): ascending numeric order,
    whatever the insertion order was. */
module Keys {

  lemma NoMemberMeansEmpty(ks: set<int>)
    requires forall x :: x !in ks
    ensures ks == {}
  {
    assert forall x :: x in ks <==> x in {};
  }

  /** A non-empty set has a member. */
  lemma HasMember(ks: set<int>)
    requires ks != {}
    ensures exists x :: x in ks
  {
    if forall x :: x !in ks {
      NoMemberMeansEmpty(ks);
      assert false;
    }
  }

  /** Every non-empty set of integers has a least element. */
  lemma {:induction false} LeastExists(ks: set<int>)
    requires ks != {}
    ensures exists m :: m in ks && forall k :: k in ks ==> m <= k
  {
    HasMember(ks);
    var x :| x in ks;
    var rest := ks - {x};
    if rest != {} {
      LeastExists(rest);
      var m :| m in rest && forall k :: k in rest ==> m <= k;
      var least := if x < m then x else m;
      assert least in ks;
      forall k | k in ks
        ensures least <= k
      {
        assert k == x || k in rest;
      }
    } else {
      forall k | k in ks
        ensures x <= k
      {
        assert k == x || k in rest;
      }
    }
  }

  function Least(ks: set<int>): (m: int)
    requires ks != {}
    ensures m in ks && forall k :: k in ks ==> m <= k
  {
    LeastExists(ks);
    var m :| m in ks && forall k :: k in ks ==> m <= k;
    m
  }

  /** `Object.keys` of an object with integer keys `ks`. */
  function SortedKeys(ks: set<int>): (r: seq<int>)
    ensures |r| == |ks|
    ensures forall k :: k in r <==> k in ks
    decreases |ks|
  {
    if ks == {} then
      []
    else
      var m := Least(ks);
      [m] + SortedKeys(ks - {m})
  }

  /** The keys are listed in strictly ascending order. */
  lemma {:induction false} SortedKeysAscending(ks: set<int>)
    ensures forall i, j :: 0 <= i < j < |SortedKeys(ks)| ==> SortedKeys(ks)[i] < SortedKeys(ks)[j]
    decreases |ks|
  {
    if ks != {} {
      var m := Least(ks);
      var rest := SortedKeys(ks - {m});
      SortedKeysAscending(ks - {m});
      assert SortedKeys(ks) == [m] + rest;
      forall j | 0 <= j < |rest|
        ensures m < rest[j]
      {
        assert rest[j] in ks - {m};
      }
    }
  }

  /** The positions of the ascending key list are a bijection onto the keys. */
  lemma SortedKeysDistinct(ks: set<int>, i: int, j: int)
    requires 0 <= i < |SortedKeys(ks)| && 0 <= j < |SortedKeys(ks)|
    requires SortedKeys(ks)[i] == SortedKeys(ks)[j]
    ensures i == j
  {
    SortedKeysAscending(ks);
  }
}

=== FILE: novelty.dfy ===
/** The inverse-frequency weighting of the collection booster
    (CollectionBooster.getRandomId, booster.ts:297-331), on plain sequences:
    owned counts per candidate id, and the weights derived from them. */
module Novelty {
  import opened Items
  import opened Random

  /** IInventory: item id to owned quantity. */
  type Inventory = map<int, int>

  /** How many drops in `loot` carry the id `id`. */
  function Occurrences(loot: seq<Item>, id: int): nat
  {
    if |loot| == 0 then 0 else (if loot[0].id == id then 1 else 0) + Occurrences(loot[1..], id)
  }

  /** The quantity of `id` the player is taken to own: the inventory entry
      (nothing when absent) plus the drops of `id` accumulated in the loot. */
  function Owned(inv: Inventory, loot: seq<Item>, id: int): int
  {
    (if id in inv then inv[id] else 0) + Occurrences(loot, id)
  }

  /** `items_ids.forEach(i => items[i] = 0)` */
  function ZeroCounts(ids: set<int>): (m: map<int, int>)
    ensures m.Keys == ids
    ensures forall id :: id in ids ==> m[id] == 0
  {
    map id | id in ids :: 0
  }

  /** The inventory pass: every inventory key that is a candidate id has its
      count ASSIGNED the inventory quantity; other inventory keys are skipped. */
  function AssignInventory(counts: map<int, int>, inv: Inventory): (m: map<int, int>)
    ensures m.Keys == counts.Keys
    ensures forall id :: id in counts && id in inv ==> m[id] == inv[id]
    ensures forall id :: id in counts && id !in inv ==> m[id] == counts[id]
  {
    map id | id in counts :: if id in inv then inv[id] else counts[id]
  }

  /** The loot pass: each drop whose id is a candidate adds one to its count. */
  function AddLoot(counts: map<int, int>, loot: seq<Item>): (m: map<int, int>)
    ensures m.Keys == counts.Keys
    ensures forall id :: id in counts ==> m[id] == counts[id] + Occurrences(loot, id)
    decreases |loot|
  {
    if |loot| == 0 then
      counts
    else
      var id := loot[0].id;
      AddLoot(if id in counts then counts[id := counts[id] + 1] else counts, loot[1..])
  }

  /** The `items` map built by getRandomId: for every candidate id, its owned count. */
  function OwnedCounts(ids: set<int>, inv: Inventory, loot: seq<Item>): (m: map<int, int>)
    ensures m.Keys == ids
    ensures forall id :: id in ids ==> m[id] == Owned(inv, loot, id)
  {
    AddLoot(AssignInventory(ZeroCounts(ids), inv), loot)
  }

  /** `Math.max(...xs)` on a non-empty list. */
  function MaxOf(xs: seq<int>): (m: int)
    requires |xs| > 0
    ensures forall k :: 0 <= k < |xs| ==> xs[k] <= m
    ensures exists k :: 0 <= k < |xs| && xs[k] == m
  {
    if |xs| == 1 then
      xs[0]
    else
      var m := MaxOf(xs[1..]);
      assert forall k :: 1 <= k < |xs| ==> xs[k] == xs[1..][k - 1];
      if xs[0] >= m then xs[0] else m
  }

  /** `max_num - y` for every count `y`, with `max_num` one above the largest count. */
  function Headroom(counts: seq<int>): (h: seq<real>)
    requires |counts| > 0
    ensures |h| == |counts|
    ensures forall k :: 0 <= k < |counts| ==> h[k] == (MaxOf(counts) + 1 - counts[k]) as real
    ensures forall k :: 0 <= k < |counts| ==> h[k] >= 1.0
  {
    var top := MaxOf(counts) + 1;
    seq(|counts|, k requires 0 <= k < |counts| => (top - counts[k]) as real)
  }

  /** Every element multiplied by `c`. */
  function Times(xs: seq<real>, c: real): (r: seq<real>)
    ensures |r| == |xs| && forall k :: 0 <= k < |xs| ==> r[k] == xs[k] * c
  {
    seq(|xs|, k requires 0 <= k < |xs| => xs[k] * c)
  }

  /** Every element divided by `t`. */
  function Over(xs: seq<real>, t: real): (r: seq<real>)
    requires t != 0.0
    ensures |r| == |xs| && forall k :: 0 <= k < |xs| ==> r[k] == xs[k] / t
  {
    seq(|xs|, k requires 0 <= k < |xs| => xs[k] / t)
  }

  /** The reals `xs` as JavaScript numbers, none of them NaN. */
  function AsNumbers(xs: seq<real>): (r: seq<JsNumber>)
    ensures |r| == |xs| && AllFinite(r) && Values(r) == xs
  {
    var r := seq(|xs|, k requires 0 <= k < |xs| => Finite(xs[k]));
    assert Values(r) == xs;
    r
  }

  /** Each raw weight divided by the sum of all of them. A zero sum makes
      every share 0/0, which is NaN. */
  function Shares(raw: seq<real>): (w: seq<JsNumber>)
    ensures |w| == |raw|
  {
    var total := Sum(raw);
    if total == 0.0 then seq(|raw|, k => NaN) else AsNumbers(Over(raw, total))
  }

  /** The weights passed to random_distribution for the counts `counts`
      (listed in ascending id order) and the multiplier `mul`: the shares of
      `(max_num - y) * mul`. A zero multiplier makes every raw weight 0. */
  function NoveltyWeights(counts: seq<int>, mul: real): (w: seq<JsNumber>)
    ensures |w| == |counts|
  {
    if |counts| == 0 then [] else Shares(Times(Headroom(counts), mul))
  }

  lemma {:induction false} SumTimes(xs: seq<real>, c: real)
    ensures Sum(Times(xs, c)) == Sum(xs) * c
    decreases |xs|
  {
    if |xs| > 0 {
      var n := |xs| - 1;
      forall k | 0 <= k < n
        ensures Times(xs, c)[..n][k] == Times(xs[..n], c)[k]
      {
        assert xs[..n][k] == xs[k];
      }
      assert Times(xs, c)[..n] == Times(xs[..n], c);
      SumTimes(xs[..n], c);
      var a := Sum(xs[..n]);
      var b := xs[n];
      assert a * c + b * c == (a + b) * c;
    }
  }

  lemma {:induction false} SumOver(xs: seq<real>, t: real)
    requires t != 0.0
    ensures Sum(Over(xs, t)) == Sum(xs) / t
    decreases |xs|
  {
    if |xs| > 0 {
      var n := |xs| - 1;
      var o := Over(xs, t);
      assert o[..n] == Over(xs[..n], t);
      SumOver(xs[..n], t);
      assert Sum(o) == Sum(o[..n]) + xs[n] / t;
      AddQuotients(Sum(xs[..n]), xs[n], t);
    }
  }

  lemma AddQuotients(a: real, b: real, t: real)
    requires t != 0.0
    ensures a / t + b / t == (a + b) / t
  {
  }

  /** A sum of terms that are each at least 1 is at least the number of terms. */
  lemma {:induction false} SumAtLeastCount(xs: seq<real>)
    requires forall k :: 0 <= k < |xs| ==> xs[k] >= 1.0
    ensures Sum(xs) >= |xs| as real
    decreases |xs|
  {
    if |xs| > 0 {
      SumAtLeastCount(xs[..|xs| - 1]);
    }
  }

  /** A term of a sum of non-negative terms is at most the sum. */
  lemma {:induction false} TermAtMostSum(xs: seq<real>, i: int)
    requires forall k :: 0 <= k < |xs| ==> xs[k] >= 0.0
    requires 0 <= i < |xs|
    ensures xs[i] <= Sum(xs)
    decreases |xs|
  {
    var n := |xs| - 1;
    if i < n {
      TermAtMostSum(xs[..n], i);
      NonNegativeSum(xs[..n]);
    } else {
      NonNegativeSum(xs[..n]);
    }
  }

  lemma {:induction false} NonNegativeSum(xs: seq<real>)
    requires forall k :: 0 <= k < |xs| ==> xs[k] >= 0.0
    ensures Sum(xs) >= 0.0
    decreases |xs|
  {
    if |xs| > 0 {
      NonNegativeSum(xs[..|xs| - 1]);
    }
  }

  lemma ProductPositive(a: real, b: real)
    requires a > 0.0 && b > 0.0
    ensures a * b > 0.0
  {
  }

  lemma ProductNonZero(a: real, b: real)
    requires a != 0.0 && b != 0.0
    ensures a * b != 0.0
  {
  }

  /** A positive part of a positive total is a fraction in (0, 1]. */
  lemma FractionInUnit(x: real, t: real)
    requires 0.0 < x <= t
    ensures 0.0 < x / t <= 1.0
  {
    assert x / t * t == x;
  }

  lemma MultiplyKeepsOrder(a: real, b: real, m: real)
    requires m > 0.0
    ensures a >= b ==> a * m >= b * m
    ensures a > b ==> a * m > b * m
  {
    if a > b {
      ProductPositive(a - b, m);
      assert (a - b) * m == a * m - b * m;
    }
  }

  lemma DivideKeepsOrder(x: real, y: real, t: real)
    requires t > 0.0
    ensures x >= y ==> x / t >= y / t
    ensures x > y ==> x / t > y / t
  {
    if x > y {
      var q := (x - y) / t;
      assert q * t == x - y;
      assert q > 0.0 by {
        if q <= 0.0 {
          MultiplyKeepsOrder(0.0, q, t);
        }
      }
      assert x / t - y / t == q;
    }
  }

  lemma CancelFactor(x: real, s: real, m: real)
    requires s != 0.0 && m != 0.0
    ensures s * m != 0.0
    ensures (x * m) / (s * m) == x / s
  {
    ProductNonZero(s, m);
    var q := x / s;
    assert q * s == x;
    assert (q * s) * m == q * (s * m);
  }

  /** The same ratio after scaling numerator and denominator by `m`. */
  lemma ScaledRatio(x: real, s: real, m: real, y: real, t: real)
    requires s != 0.0 && m != 0.0
    requires y == x * m && t == s * m
    ensures t != 0.0 && y / t == x / s
  {
    CancelFactor(x, s, m);
  }

  /** The share of the `k`-th raw weight in a non-zero total. */
  lemma ShareAt(raw: seq<real>, k: int)
    requires Sum(raw) != 0.0 && 0 <= k < |raw|
    ensures Shares(raw)[k] == Finite(raw[k] / Sum(raw))
  {
  }

  lemma DivideBySelf(t: real)
    requires t != 0.0
    ensures t / t == 1.0
  {
  }

  lemma {:induction false} ZeroTimes(xs: seq<real>)
    ensures Sum(Times(xs, 0.0)) == 0.0
  {
    SumTimes(xs, 0.0);
  }

  /** Shares of a non-zero total are finite and add up to exactly 1. */
  lemma SharesSumToOne(raw: seq<real>)
    requires Sum(raw) != 0.0
    ensures AllFinite(Shares(raw))
    ensures Sum(Values(Shares(raw))) == 1.0
  {
    var total := Sum(raw);
    assert Values(Shares(raw)) == Over(raw, total);
    SumOver(raw, total);
    DivideBySelf(total);
  }

  /** Shares of positive raw weights lie in (0, 1]. */
  lemma SharesInUnit(raw: seq<real>, k: int)
    requires forall j :: 0 <= j < |raw| ==> raw[j] > 0.0
    requires 0 <= k < |raw|
    ensures Sum(raw) > 0.0
    ensures AllFinite(Shares(raw))
    ensures 0.0 < Shares(raw)[k].v <= 1.0
  {
    TermAtMostSum(raw, k);
    FractionInUnit(raw[k], Sum(raw));
    ShareAt(raw, k);
  }

  /** Shares keep the order of the raw weights. */
  lemma SharesKeepOrder(raw: seq<real>, i: int, j: int)
    requires Sum(raw) > 0.0
    requires 0 <= i < |raw| && 0 <= j < |raw|
    ensures AllFinite(Shares(raw))
    ensures raw[i] >= raw[j] ==> Shares(raw)[i].v >= Shares(raw)[j].v
    ensures raw[i] > raw[j] ==> Shares(raw)[i].v > Shares(raw)[j].v
  {
    var total := Sum(raw);
    ShareAt(raw, i);
    ShareAt(raw, j);
    DivideKeepsOrder(raw[i], raw[j], total);
  }

  /** Shares are equal when every raw weight has the same proportion of its total. */
  lemma SameShares(a: seq<real>, b: seq<real>)
    requires |a| == |b| && Sum(a) != 0.0 && Sum(b) != 0.0
    requires forall k :: 0 <= k < |a| ==> a[k] / Sum(a) == b[k] / Sum(b)
    ensures Shares(a) == Shares(b)
  {
    forall k | 0 <= k < |a|
      ensures Shares(a)[k] == Shares(b)[k]
    {
      ShareAt(a, k);
      ShareAt(b, k);
    }
  }

  /** Scaling every raw weight by a non-zero factor leaves the shares alone. */
  lemma SharesIgnoreScale(xs: seq<real>, ys: seq<real>, m: real)
    requires m != 0.0 && Sum(xs) != 0.0 && |ys| == |xs|
    requires forall k :: 0 <= k < |xs| ==> ys[k] == xs[k] * m
    ensures Shares(ys) == Shares(xs)
  {
    var s := Sum(xs);
    assert Times(xs, m) == ys;
    assert Sum(ys) == s * m by {
      SumTimes(xs, m);
    }
    forall k | 0 <= k < |xs|
      ensures ys[k] / Sum(ys) == xs[k] / s
    {
      ScaledRatio(xs[k], s, m, ys[k], Sum(ys));
    }
    SameShares(ys, xs);
  }

  lemma SharesIgnoreTimes(xs: seq<real>, m: real)
    requires m != 0.0 && Sum(xs) != 0.0
    ensures Shares(Times(xs, m)) == Shares(xs)
  {
    SharesIgnoreScale(xs, Times(xs, m), m);
  }

  /** Every candidate contributes at least 1 to the headroom sum. */
  lemma HeadroomSum(counts: seq<int>)
    requires |counts| > 0
    ensures Sum(Headroom(counts)) >= |counts| as real >= 1.0
  {
    SumAtLeastCount(Headroom(counts));
  }

  /** For any non-zero multiplier the weights are the shares of the headroom
      `max_num - y` alone. */
  lemma NoveltyWeightsNormal(counts: seq<int>, mul: real)
    requires mul != 0.0 && |counts| > 0
    ensures NoveltyWeights(counts, mul) == Shares(Headroom(counts))
  {
    HeadroomSum(counts);
    SharesIgnoreTimes(Headroom(counts), mul);
  }

  /** A multiplier of 0 is the only way the weights become NaN. */
  lemma NoveltyWeightsFinite(counts: seq<int>, mul: real)
    ensures AllFinite(NoveltyWeights(counts, mul)) <==> mul != 0.0 || |counts| == 0
  {
    if |counts| > 0 {
      if mul != 0.0 {
        NoveltyWeightsNormal(counts, mul);
        HeadroomSum(counts);
        SharesSumToOne(Headroom(counts));
      } else {
        ZeroTimes(Headroom(counts));
        assert NoveltyWeights(counts, mul)[0] == NaN;
      }
    }
  }

  /** Every weight is positive and at most 1. */
  lemma NoveltyWeightsPositive(counts: seq<int>, mul: real, k: int)
    requires mul != 0.0 && 0 <= k < |counts|
    ensures AllFinite(NoveltyWeights(counts, mul))
    ensures 0.0 < NoveltyWeights(counts, mul)[k].v <= 1.0
  {
    NoveltyWeightsNormal(counts, mul);
    SharesInUnit(Headroom(counts), k);
  }

  /** Over the reals the weights add up to exactly 1. */
  lemma NoveltyWeightsSumToOne(counts: seq<int>, mul: real)
    requires mul != 0.0 && |counts| > 0
    ensures AllFinite(NoveltyWeights(counts, mul))
    ensures Sum(Values(NoveltyWeights(counts, mul))) == 1.0
  {
    NoveltyWeightsNormal(counts, mul);
    HeadroomSum(counts);
    SharesSumToOne(Headroom(counts));
  }

  /** Owning fewer copies never gives a smaller weight, and owning strictly
      fewer gives a strictly larger one. */
  lemma NoveltyWeightsAntitone(counts: seq<int>, mul: real, i: int, j: int)
    requires mul != 0.0 && 0 <= i < |counts| && 0 <= j < |counts|
    ensures AllFinite(NoveltyWeights(counts, mul))
    ensures counts[i] <= counts[j] ==> NoveltyWeights(counts, mul)[i].v >= NoveltyWeights(counts, mul)[j].v
    ensures counts[i] < counts[j] ==> NoveltyWeights(counts, mul)[i].v > NoveltyWeights(counts, mul)[j].v
  {
    NoveltyWeightsNormal(counts, mul);
    HeadroomSum(counts);
    SharesKeepOrder(Headroom(counts), i, j);
  }

  /** `new_item_chance_mul` cancels: the weights for any non-zero multiplier
      are the weights for the multiplier 1. */
  lemma NoveltyWeightsIgnoreMultiplier(counts: seq<int>, mul: real)
    requires mul != 0.0
    ensures NoveltyWeights(counts, mul) == NoveltyWeights(counts, 1.0)
  {
    if |counts| > 0 {
      NoveltyWeightsNormal(counts, mul);
      NoveltyWeightsNormal(counts, 1.0);
    }
  }
}

=== FILE: outcomes.dfy ===
/** Optional values, the failures of the booster operations, and a Result
    type that works with Dafny's `:-` operator. */
module Outcomes {

  /** An optional value: the model of a JavaScript property that may be `undefined`. */
  datatype Option<+T> = None | Some(value: T) {

    /** The value, or `default` when there is none. */
    function GetOr(default: T): T {
      match this
      case Some(v) => v
      case None => default
    }
  }

  /** Everything an operation of the model can fail with. */
  datatype Error =
    | InvalidWeights      // random_distribution: some weight failed the element check
    | WeightSumMismatch   // random_distribution: the rounded weight sum is not 1
    | EmptyWeights        // random_distribution: `reduce` without a seed over no weights
    | EmptyCandidatePool  // getRandomId indexed past the keys of an empty pool
    | DrawsExhausted      // the stream of uniform draws ran out

  datatype Result<+T> = Ok(value: T) | Err(error: Error) {

    predicate IsFailure() {
      Err?
    }

    function PropagateFailure<U>(): Result<U>
      requires Err?
    {
      Err(error)
    }

    function Extract(): T
      requires Ok?
    {
      value
    }
  }
}

=== FILE: properties.dfy ===
/** Properties of whole openings and of sequences of drops. */
module BoosterProperties {
  import opened Outcomes
  import opened Items
  import opened Random
  import opened Keys
  import opened Novelty
  import opened Boosters

  /** An omitted range becomes [0, 0], so a base or luck booster built
      without one consumes its single count draw and drops nothing, whatever
      its pool holds. */
  lemma DefaultRangeDropsNothing(st: Settings, inventory: Option<Inventory>, s: Draws)
    requires st.countRange.None? && s.Left() > 0
    ensures Open(NewBooster(st), inventory, s).Ok?
    ensures Open(NewBooster(st), inventory, s).value.value == []
    ensures Open(NewLuck(st), inventory, s).Ok?
    ensures Open(NewLuck(st), inventory, s).value.value == []
  {
    RoundOfInteger(0);
    if |st.pool.Keys| > 0 {
      var b := NewBooster(st);
      var n := ItemsNum(b.(inventory := inventory.GetOr(map[])), s);
      assert n.Ok? && n.value.value == 0;
      var l := NewLuck(st);
      var m := ItemsNum(l.(inventory := inventory.GetOr(map[])), s);
      assert m.Ok? && m.value.value == 0;
    }
  }

  /** A new uniform or collection booster drops at least four items in an
      opening of a non-empty pool. */
  lemma UniformDropsAtLeastFour(st: Settings, inventory: Option<Inventory>, s: Draws, b: Booster)
    requires b == NewUniform(st) || b == NewCollection(st)
    requires |st.pool.Keys| > 0
    requires Open(b, inventory, s).Ok?
    ensures |Open(b, inventory, s).value.value| >= CoverageTarget
  {
    assert b.range == NewUniform(st).range && b.loot == [];
    RoundMonotone(CoverageTarget as real, b.range.min);
    RoundOfInteger(CoverageTarget);
  }

  /** The second opening returns the first opening's loot followed by the new
      drops: the history is never reset. */
  lemma HistoryAccumulates(b: Booster, first: Option<Inventory>, second: Option<Inventory>, s: Draws)
    requires |b.pool.Keys| > 0
    requires Open(b, first, s).Ok?
    requires Open(Open(b, first, s).value.booster, second, Open(b, first, s).value.rest).Ok?
    ensures var one := Open(b, first, s).value;
            var two := Open(one.booster, second, one.rest).value;
            && b.loot <= one.value <= two.value
            && two.booster.pool == b.pool
            && two.booster.inventory == map[]
  {
  }

  /** `Set(loot.map(i => i.itemType))` grows by the type of each new drop. */
  lemma UsedTypesAppend(loot: seq<Item>, it: Item)
    ensures UsedTypes(loot + [it]) == UsedTypes(loot) + {it.itemType}
  {
    var l := loot + [it];
    forall t | t in UsedTypes(loot)
      ensures t in UsedTypes(l)
    {
      var k :| 0 <= k < |loot| && loot[k].itemType == t;
      assert l[k] == loot[k];
    }
    assert l[|loot|] == it;
  }

  /** One turn of the drop loop: the first drop, then the rest drawn by the
      booster that has it in its loot. */
  lemma DrawItemsStep(b: Booster, k: nat, s: Draws, r: Step<seq<Item>>)
      returns (it: Step<Item>, m: nat, more: Step<seq<Item>>)
    requires k > 0 && DrawItems(b, k, s) == Ok(r)
    ensures m == k - 1
    ensures GetRandomItem(b, s) == Ok(it)
    ensures DrawItems(Pushed(it), m, it.rest) == Ok(more)
    ensures r.booster == more.booster && r.value == [it.value] + more.value
  {
    m := Remaining(k);
    it := GetRandomItem(b, s).value;
    more := DrawItems(Pushed(it), m, it.rest).value;
  }

  /** One drop of a uniform or collection booster that has seen fewer than
      four types adds one type to the loot and keeps the class. */
  lemma UniformDropAddsType(b: Booster, s: Draws)
    requires (b.policy.Uniform? || b.policy.Collection?) && |UsedTypes(b.loot)| < CoverageTarget
    requires GetRandomItem(b, s).Ok?
    ensures var next := Pushed(GetRandomItem(b, s).value);
            && next.policy == b.policy
            && |UsedTypes(next.loot)| == |UsedTypes(b.loot)| + 1
  {
    var it := GetRandomItem(b, s).value;
    assert GetRandomItem(b, s) == UniformRandomItem(b, s);
    UsedTypesAppend(b.loot, it.value);
  }

  /** A booster that narrows its pool to types not yet dropped. */
  predicate Covering(b: Booster) {
    b.policy.Uniform? || b.policy.Collection?
  }

  /** While fewer than four distinct types have dropped, every drop of a
      uniform or collection booster brings a type not seen before: `k` drops
      add exactly `k` types. */
  lemma {:induction false} UniformDropsNewTypes(b: Booster, k: nat, s: Draws, r: Step<seq<Item>>)
    requires Covering(b)
    requires |UsedTypes(b.loot)| + k <= CoverageTarget
    requires DrawItems(b, k, s) == Ok(r)
    ensures |UsedTypes(r.booster.loot)| == |UsedTypes(b.loot)| + k
    decreases k
  {
    if k > 0 {
      var next, m, rest, more := NewTypeStep(b, k, s, r);
      UniformDropsNewTypes(next, m, rest, more);
    }
  }

  /** One turn of UniformDropsNewTypes: the booster after the first drop meets
      the same conditions for the remaining `m = k - 1` drops, with one more type. */
  lemma NewTypeStep(b: Booster, k: nat, s: Draws, r: Step<seq<Item>>)
      returns (next: Booster, m: nat, rest: Draws, more: Step<seq<Item>>)
    requires Covering(b)
    requires |UsedTypes(b.loot)| + k <= CoverageTarget
    requires k > 0 && DrawItems(b, k, s) == Ok(r)
    ensures m == k - 1
    ensures Covering(next)
    ensures |UsedTypes(next.loot)| == |UsedTypes(b.loot)| + 1
    ensures |UsedTypes(next.loot)| + m <= CoverageTarget
    ensures DrawItems(next, m, rest) == Ok(more)
    ensures r.booster == more.booster
  {
    var it;
    it, m, more := DrawItemsStep(b, k, s, r);
    UniformDropAddsType(b, s);
    next, rest := Pushed(it), it.rest;
  }

  /** A booster whose guarantee counter is running: a rarity above Common
      and a non-negative counter. */
  predicate CounterRunning(b: Booster) {
    b.rarity != Common && b.guarantee.Some? && b.guarantee.value >= 0
  }

  /** A base booster whose guarantee counter is running. */
  predicate Counting(b: Booster) {
    b.policy.Plain? && CounterRunning(b)
  }

  /** What one drop of a base booster with a non-negative counter does to
      the rarity and the counter. */
  lemma GuaranteedDrop(b: Booster, s: Draws)
    requires Counting(b) && GetRandomItem(b, s).Ok?
    ensures var it := GetRandomItem(b, s).value;
            var g := b.guarantee.value;
            && RarityOrdinal(it.value.rarity) == (if g > 0 then RarityOrdinal(b.rarity) else RarityOrdinal(b.rarity) - 1)
            && it.booster == b.(guarantee := Some(if g > 0 then g - 1 else 0))
  {
    assert GetRandomItem(b, s) == BaseRandomItem(b, s);
  }

  /** The counter `g` after `k` drops: one less per drop, never below 0. */
  function Countdown(g: int, k: nat): (c: int)
    requires g >= 0
    ensures 0 <= c <= g
    ensures c == 0 <==> g <= k
  {
    if g >= k then g - k else 0
  }

  /** Counting down `k` is counting down 1, then `k - 1`. */
  lemma CountdownStep(g: int, k: nat, m: nat)
    requires g >= 0 && k > 0 && m == k - 1
    ensures Countdown(Countdown(g, 1), m) == Countdown(g, k)
  {
  }

  /** The booster after a guaranteed drop is again a base booster of the
      same rarity, with the counter one lower or still 0. */
  lemma GuaranteedNext(b: Booster, s: Draws)
    requires Counting(b) && GetRandomItem(b, s).Ok?
    ensures var next := Pushed(GetRandomItem(b, s).value);
            && Counting(next) && next.rarity == b.rarity
            && next.guarantee == Some(Countdown(b.guarantee.value, 1))
  {
    GuaranteedDrop(b, s);
  }

  /** One turn of the drop loop of a counting base booster: the first drop
      and the booster that draws the remaining `m = k - 1` drops. */
  lemma GuaranteeStep(b: Booster, k: nat, s: Draws, r: Step<seq<Item>>)
      returns (first: Item, next: Booster, m: nat, rest: Draws, more: Step<seq<Item>>)
    requires Counting(b) && k > 0 && DrawItems(b, k, s) == Ok(r)
    ensures m == k - 1
    ensures RarityOrdinal(first.rarity)
              == if b.guarantee.value > 0 then RarityOrdinal(b.rarity) else RarityOrdinal(b.rarity) - 1
    ensures Counting(next) && next.rarity == b.rarity
    ensures next.guarantee == Some(Countdown(b.guarantee.value, 1))
    ensures DrawItems(next, m, rest) == Ok(more)
    ensures r.booster == more.booster && r.value == [first] + more.value
  {
    var it;
    it, m, more := DrawItemsStep(b, k, s, r);
    GuaranteedNext(b, s);
    first, next, rest := it.value, Pushed(it), it.rest;
  }

  lemma AfterFirst(first: Item, rest: seq<Item>, j: int, i: int)
    requires 0 < j <= |rest| && i == j - 1
    ensures ([first] + rest)[j] == rest[i]
  {
  }

  /** The rarity guarantee of a base booster: with a counter of `g` the next
      `g` drops have the booster's rarity and every later one the rarity
      below. */
  lemma {:induction false} GuaranteeSchedule(b: Booster, k: nat, s: Draws, r: Step<seq<Item>>, j: int)
    requires Counting(b) && DrawItems(b, k, s) == Ok(r)
    requires 0 <= j < k
    ensures RarityOrdinal(r.value[j].rarity)
              == if j < b.guarantee.value then RarityOrdinal(b.rarity) else RarityOrdinal(b.rarity) - 1
    decreases k
  {
    var first, next, m, rest, more := GuaranteeStep(b, k, s, r);
    if j > 0 {
      var i := j - 1;
      GuaranteeSchedule(next, m, rest, more, i);
      AfterFirst(first, more.value, j, i);
      assert (i < next.guarantee.value) == (j < b.guarantee.value);
    } else {
      assert r.value[j] == first;
    }
  }

  /** The base drop counts the counter down by one, stopping at 0. */
  lemma BaseDropCounter(b: Booster, s: Draws)
    requires CounterRunning(b) && BaseRandomItem(b, s).Ok?
    ensures BaseRandomItem(b, s).value.booster.guarantee == Some(Countdown(b.guarantee.value, 1))
  {
    assert BaseRandomItem(b, s).value.booster == RandomRarity(b, s.Skip(1)).value.booster;
  }

  /** Every class draws its rarity through the base drop, so every drop
      counts the counter down by one, stopping at 0. */
  lemma DropCounter(b: Booster, s: Draws)
    requires CounterRunning(b) && GetRandomItem(b, s).Ok?
    ensures GetRandomItem(b, s).value.booster.guarantee == Some(Countdown(b.guarantee.value, 1))
  {
    if b.policy.Plain? {
      assert GetRandomItem(b, s) == BaseRandomItem(b, s);
      BaseDropCounter(b, s);
    } else if b.policy.Luck? {
      assert GetRandomItem(b, s) == LuckRandomItem(b, s);
      BaseDropCounter(b, s);
    } else {
      var c := b.(pool := Candidates(b));
      assert GetRandomItem(b, s) == UniformRandomItem(b, s);
      assert UniformRandomItem(b, s).value.booster.guarantee == LuckRandomItem(c, s).value.booster.guarantee;
      BaseDropCounter(c, s);
    }
  }

  /** The counter after `k` drops, whatever the class. */
  lemma {:induction false} GuaranteeCountsDown(b: Booster, k: nat, s: Draws, r: Step<seq<Item>>)
    requires CounterRunning(b) && DrawItems(b, k, s) == Ok(r)
    ensures r.booster.guarantee == Some(Countdown(b.guarantee.value, k))
    decreases k
  {
    if k > 0 {
      var it, m, more := DrawItemsStep(b, k, s, r);
      DropCounter(b, s);
      var next := Pushed(it);
      assert CounterRunning(next) && next.guarantee == Some(Countdown(b.guarantee.value, 1));
      CountdownStep(b.guarantee.value, k, m);
      GuaranteeCountsDown(next, m, it.rest, more);
    }
  }

  /** The level bound 5 of isRarityUpgradable never rejects the levels 1..3
      the upgrade loop asks about: each of them tosses the coin `chance ** level`. */
  lemma LevelBoundNeverRejects(chance: real, level: int, s: Draws)
    requires 1 <= level <= TopRarity
    ensures IsRarityUpgradable(chance, level, s) == RandomCoin(Pow(chance, level), s)
  {
  }

  /** Where the collection booster's preference for rarely owned items lies:
      between two candidates, the one owned less often has at least the
      weight of the other, strictly more when owned strictly less often. */
  lemma CollectionPrefersLessOwned(b: Booster, i: int, j: int)
    requires b.policy.Collection? && b.policy.newItemChanceMul != 0.0
    requires 0 <= i < |b.pool.Keys| && 0 <= j < |b.pool.Keys|
    ensures AllFinite(CollectionWeights(b))
    ensures var ids := SortedKeys(b.pool.Keys);
            var w := CollectionWeights(b);
            && (Owned(b.inventory, b.loot, ids[i]) <= Owned(b.inventory, b.loot, ids[j]) ==> w[i].v >= w[j].v)
            && (Owned(b.inventory, b.loot, ids[i]) < Owned(b.inventory, b.loot, ids[j]) ==> w[i].v > w[j].v)
  {
    NoveltyWeightsAntitone(OwnedInOrder(b), b.policy.newItemChanceMul, i, j);
  }

  /** The base drop of a booster that picks uniformly copies the pool entry
      at index `Math.round(d * (n - 1))` of the ascending key list, `d` being
      the first draw and `n` the pool size. */
  lemma BaseDropIndex(b: Booster, s: Draws) returns (k: int)
    requires !b.policy.Collection? && BaseRandomItem(b, s).Ok?
    ensures |b.pool.Keys| > 0 && s.Left() > 0
    ensures k == PickIndex(|b.pool.Keys|, s.Ahead(0))
    ensures 0 <= k < |b.pool.Keys|
    ensures CopyOf(BaseRandomItem(b, s).value.value, b.pool[SortedKeys(b.pool.Keys)[k]])
  {
    BaseDropCopiesPick(b, s);
    k := BaseRandomIdIndex(b.pool, s);
  }

  lemma BaseDropCopiesPick(b: Booster, s: Draws)
    requires !b.policy.Collection? && BaseRandomItem(b, s).Ok?
    ensures BaseRandomId(b.pool, s).Ok?
    ensures CopyOf(BaseRandomItem(b, s).value.value, b.pool[BaseRandomId(b.pool, s).value.value])
  {
    assert RandomId(b, s) == BaseRandomId(b.pool, s);
  }

  /** A luck drop whose rarity rose by `j` levels won the coin of level `j`
      and lost every lower one; one whose rarity stayed lost every coin up
      to the top. The coins are tossed on the draws after the base drop. */
  lemma LuckUpgradeIsFirstWin(b: Booster, s: Draws)
    requires !b.policy.Plain? && LuckRandomItem(b, s).Ok?
    ensures BaseRandomItem(b, s).Ok?
    ensures var base := BaseRandomItem(b, s).value;
            var ord := RarityOrdinal(base.value.rarity);
            var j := RarityOrdinal(LuckRandomItem(b, s).value.value.rarity) - ord;
            var chance := b.policy.upgradeChance;
            && 0 <= j
            && (j > 0 ==> 2 * (j - 1) + 1 < base.rest.Left() && WinsAt(chance, 1, base.rest, j) && LostBelow(chance, 1, base.rest, j))
            && (j == 0 ==> var last := if TopRarity - ord >= 1 then TopRarity - ord + 1 else 1;
                           2 * (last - 1) <= base.rest.Left() && LostBelow(chance, 1, base.rest, last))
  {
    var r := LuckRandomItem(b, s).value;
    var base := BaseRandomItem(b, s).value;
    var ord := RarityOrdinal(base.value.rarity);
    var up := Drawn(RarityOrdinal(r.value.rarity), r.rest);
    if up.value > ord {
      UpgradeIsFirstWin(ord, 1, b.policy.upgradeChance, base.rest, up);
    } else {
      NoUpgradeMeansAllLost(ord, 1, b.policy.upgradeChance, base.rest, up);
    }
  }
}

=== FILE: random.dfy ===
/** The randomness utility (utils/random.js).

    `random()` is the only primitive: MyRandom takes it from Math.random and
    MyRandomSeed from a seeded generator, and the seeded class overrides
    nothing else. Here the source of `random()` is an explicit sequence of
    draws in [0,1) with a position in it; every operation consumes the draws
    from that position on and returns the position after them, so equal
    streams give equal results whichever generator produced them. */
module Random {
  import opened Outcomes

  /** What `random()` promises of every value it returns. */
  type Unit = x: real | 0.0 <= x < 1.0

  /** The results of `random()`, and the position of the next one. */
  datatype Draws = Draws(values: seq<Unit>, at: nat) {
    /** How many draws are left. */
    function Left(): nat {
      if at < |values| then |values| - at else 0
    }

    /** The draw `k` places after the next one. */
    function Ahead(k: nat): Unit
      requires k < Left()
    {
      values[at + k]
    }

    /** The stream after `n` more draws. */
    function Skip(n: nat): (t: Draws)
      ensures t.values == values && t.at == at + n
      ensures t.Left() == if n <= Left() then Left() - n else 0
    {
      this.(at := at + n)
    }
  }

  /** `rest` is `s` with zero or more further draws consumed. */
  predicate LaterOn(rest: Draws, s: Draws) {
    rest.values == s.values && s.at <= rest.at
  }

  /** A value computed from the next draws of a stream, and the stream after them. */
  datatype Drawn<+T> = Drawn(value: T, rest: Draws)

  /** `random()`: consumes exactly one draw. */
  function Next(s: Draws): (r: Result<Drawn<real>>)
    ensures r.Ok? <==> s.Left() > 0
    ensures r.Ok? ==> r.value.value == s.Ahead(0) && r.value.rest == s.Skip(1)
  {
    if s.Left() == 0 then Err(DrawsExhausted) else Ok(Drawn(s.Ahead(0), s.Skip(1)))
  }

  /** `Math.round`: the nearest integer, halves rounded up. */
  function Round(x: real): (n: int)
    ensures x - 0.5 < n as real <= x + 0.5
  {
    (x + 0.5).Floor
  }

  lemma RoundMonotone(x: real, y: real)
    requires x <= y
    ensures Round(x) <= Round(y)
  {
  }

  lemma RoundOfInteger(n: int)
    ensures Round(n as real) == n
  {
  }

  /** `d * w`: a draw stretched over a width. Kept as a function of its own
      so that the facts below are stated about one product term. */
  function Stretch(d: real, w: real): (x: real)
    ensures 0.0 <= d < 1.0 && 0.0 < w ==> 0.0 <= x < w
    ensures w == 0.0 ==> x == 0.0
  {
    StretchBounds(d, w);
    d * w
  }

  lemma StretchBounds(d: real, w: real)
    ensures 0.0 <= d < 1.0 && 0.0 < w ==> 0.0 <= d * w < w
  {
    if 0.0 <= d < 1.0 && 0.0 < w {
      assert (1.0 - d) * w > 0.0;
      assert (1.0 - d) * w == w - d * w;
    }
  }

  /** `random_int(min, max)`: a real (not an integer) `random()*(max - min) + min`;
      rounding is left to the callers. Consumes exactly one draw. */
  function RandomInt(min: real, max: real, s: Draws): (r: Result<Drawn<real>>)
    ensures r.Ok? <==> s.Left() > 0
    ensures r.Ok? ==> r.value.rest == s.Skip(1)
    ensures r.Ok? && min < max ==> min <= r.value.value < max
    ensures r.Ok? && min == max ==> r.value.value == min
    ensures r.Ok? ==> r.value.value == s.Ahead(0) * (max - min) + min
  {
    var d :- Next(s);
    Ok(Drawn(Stretch(d.value, max - min) + min, d.rest))
  }

  /** Rounding a draw from `random_int(lo, hi)` with integer bounds lands in [lo, hi]. */
  lemma RoundedRandomIntInRange(lo: int, hi: int, v: real)
    requires lo <= hi
    requires lo as real <= v && (v < hi as real || (lo == hi && v == lo as real))
    ensures lo <= Round(v) <= hi
  {
    RoundMonotone(lo as real, v);
    RoundOfInteger(lo);
    if v < hi as real {
      RoundMonotone(v, hi as real);
    }
    RoundOfInteger(hi);
  }

  /** `x ** n` for a natural exponent. A power of a probability is a
      probability, and a power of a positive number is positive. */
  function Pow(x: real, n: nat): (p: real)
    ensures 0.0 <= x <= 1.0 ==> 0.0 <= p <= 1.0
    ensures x > 0.0 ==> p > 0.0
  {
    if n == 0 then
      1.0
    else
      var q := Pow(x, n - 1);
      ProductOfProbabilities(x, q);
      x * q
  }

  /** A product of probabilities is a probability. */
  lemma ProductOfProbabilities(a: real, b: real)
    ensures 0.0 <= a <= 1.0 && 0.0 <= b <= 1.0 ==> 0.0 <= a * b <= 1.0
    ensures a > 0.0 && b > 0.0 ==> a * b > 0.0
  {
    if 0.0 <= a <= 1.0 && 0.0 <= b <= 1.0 {
      assert a * b <= 1.0 * b;
    }
  }

  function Pow10(n: nat): (p: nat)
    ensures p >= 1
  {
    if n == 0 then 1 else 10 * Pow10(n - 1)
  }

  /** The left end of the window in which `random_coin(p)` accepts its second
      draw, given the first draw `d`: `random_int(p/2, 1 - p/2) - p/2`. */
  function CoinWindowStart(p: real, d: real): real {
    Stretch(d, 1.0 - p)
  }

  /** The second draw falls strictly inside the window the first one placed. */
  predicate CoinLands(p: real, first: real, second: real) {
    CoinWindowStart(p, first) < second < CoinWindowStart(p, first) + p
  }

  /** `random_coin(p)`: one draw places a window of width `p`, a second draw
      wins when it falls strictly inside. Consumes exactly two draws. */
  function RandomCoin(p: real, s: Draws): (r: Result<Drawn<bool>>)
    ensures r.Ok? <==> s.Left() >= 2
    ensures r.Ok? ==> r.value.rest == s.Skip(2)
    ensures r.Ok? ==> (r.value.value <==> CoinLands(p, s.Ahead(0), s.Ahead(1)))
    ensures r.Ok? && r.value.value ==> p > 0.0
  {
    var p1 :- RandomInt(p / 2.0, 1.0 - p / 2.0, s);
    var p2 :- Next(p1.rest);
    Ok(Drawn(p2.value > p1.value - p / 2.0 && p2.value < p1.value + p / 2.0, p2.rest))
  }

  /** For 0 <= p <= 1 the window lies inside [0,1], so a uniform second draw
      falls in it with probability exactly `p`. */
  lemma CoinWindowInUnit(p: real, d: real)
    requires 0.0 <= p <= 1.0 && 0.0 <= d < 1.0
    ensures 0.0 <= CoinWindowStart(p, d) && CoinWindowStart(p, d) + p <= 1.0
  {
  }

  /** A JavaScript number as far as weights go: a real or NaN. */
  datatype JsNumber = NaN | Finite(v: real)

  /** `0 <= x` in JavaScript: every comparison with NaN is false. */
  function ZeroAtMost(x: JsNumber): bool {
    x.Finite? && 0.0 <= x.v
  }

  /** The number a relational operator makes of a boolean operand. */
  function BoolAsNumber(b: bool): real {
    if b then 1.0 else 0.0
  }

  /** The element test of random_distribution, `isNaN(x) || !(0 <= x <= 1)`,
      where `0 <= x <= 1` parses as `(0 <= x) <= 1`. */
  predicate RejectsElement(x: JsNumber) {
    x.NaN? || !(BoolAsNumber(ZeroAtMost(x)) <= 1.0)
  }

  /** The range half of the element test is vacuous: only NaN is rejected,
      and weights below 0 or above 1 pass. */
  lemma RejectsOnlyNaN(x: JsNumber)
    ensures RejectsElement(x) <==> x.NaN?
    ensures !RejectsElement(Finite(-1.0)) && !RejectsElement(Finite(2.0))
  {
  }

  predicate AllFinite(w: seq<JsNumber>) {
    forall k :: 0 <= k < |w| ==> w[k].Finite?
  }

  function Values(w: seq<JsNumber>): (r: seq<real>)
    requires AllFinite(w)
    ensures |r| == |w| && forall k :: 0 <= k < |w| ==> r[k] == w[k].v
  {
    seq(|w|, k requires 0 <= k < |w| => w[k].v)
  }

  /** The sum of `s`, added from left to right as `reduce` does. */
  function Sum(s: seq<real>): real {
    if |s| == 0 then 0.0 else Sum(s[..|s| - 1]) + s[|s| - 1]
  }

  /** The running sum after the first `n` weights. */
  function Prefix(w: seq<real>, n: nat): real
    requires n <= |w|
  {
    Sum(w[..n])
  }

  lemma PrefixStep(w: seq<real>, i: nat)
    requires i < |w|
    ensures Prefix(w, i + 1) == Prefix(w, i) + w[i]
  {
    assert w[..i + 1][..i] == w[..i];
  }

  /** The sum test of random_distribution:
      `Math.round(sum * 10**accuracy) / 10**accuracy` must be exactly 1. */
  predicate SumAccepted(sum: real, accuracy: nat) {
    var scale := Pow10(accuracy) as real;
    (Round(sum * scale) as real) / scale == 1.0
  }

  /** The sum test as an interval: within half a unit of the last kept digit of 1. */
  predicate SumWithinAccuracy(sum: real, accuracy: nat) {
    var scale := Pow10(accuracy) as real;
    1.0 - 0.5 / scale <= sum < 1.0 + 0.5 / scale
  }

  lemma SumAcceptedIff(sum: real, accuracy: nat)
    ensures SumAccepted(sum, accuracy) <==> SumWithinAccuracy(sum, accuracy)
  {
    var scale := Pow10(accuracy) as real;
    var y := sum * scale;
    RoundIsIff(y, Pow10(accuracy));
    DivideByScale(Round(y) as real, scale);
    ScaledWindow(sum, scale);
  }

  /** `Math.round(y)` is `n` exactly when `y` lies in [n - 1/2, n + 1/2). */
  lemma RoundIsIff(y: real, n: int)
    ensures Round(y) == n <==> n as real - 0.5 <= y < n as real + 0.5
  {
  }

  lemma DivideByScale(x: real, scale: real)
    requires scale > 0.0
    ensures x / scale == 1.0 <==> x == scale
  {
    if x / scale == 1.0 {
      assert x == (x / scale) * scale;
    }
  }

  lemma ScaledWindow(sum: real, scale: real)
    requires scale >= 1.0
    ensures 1.0 - 0.5 / scale <= sum <==> scale - 0.5 <= sum * scale
    ensures sum < 1.0 + 0.5 / scale <==> sum * scale < scale + 0.5
  {
    assert (1.0 - 0.5 / scale) * scale == scale - 0.5;
    assert (1.0 + 0.5 / scale) * scale == scale + 0.5;
    MultiplyPreservesOrder(1.0 - 0.5 / scale, sum, scale);
    MultiplyPreservesOrder(sum, 1.0 + 0.5 / scale, scale);
  }

  lemma MultiplyPreservesOrder(a: real, b: real, c: real)
    requires c > 0.0
    ensures a <= b <==> a * c <= b * c
    ensures a < b <==> a * c < b * c
  {
    assert b * c - a * c == (b - a) * c;
  }

  /** `k` is the index the selection loop returns for the draw `d`: the first
      index whose running sum exceeds `d`, or the last index when none does. */
  predicate IsSelected(w: seq<real>, d: real, k: int) {
    && 0 <= k < |w|
    && if exists n :: 1 <= n <= |w| && d < Prefix(w, n)
       then d < Prefix(w, k + 1) && forall n :: 1 <= n <= k ==> Prefix(w, n) <= d
       else k == |w| - 1
  }

  /** The loop of random_distribution from index `i` on, `acc` being the running sum so far. */
  function SelectFrom(w: seq<real>, d: real, i: nat, acc: real): (k: nat)
    requires 0 < |w| && i <= |w| && acc == Prefix(w, i)
    requires forall n :: 1 <= n <= i ==> Prefix(w, n) <= d
    ensures IsSelected(w, d, k)
    decreases |w| - i
  {
    if i == |w| then
      |w| - 1
    else
      PrefixStep(w, i);
      if d < acc + w[i] then i else SelectFrom(w, d, i + 1, acc + w[i])
  }

  /** The index chosen by the draw `d`. */
  function Select(w: seq<real>, d: real): (k: nat)
    requires 0 < |w|
    ensures IsSelected(w, d, k)
  {
    assert w[..0] == [];
    SelectFrom(w, d, 0, 0.0)
  }

  /** A selection that did not fall back hits a weight that is positive. */
  lemma SelectedWeightPositive(w: seq<real>, d: real, k: int)
    requires 0.0 <= d && IsSelected(w, d, k)
    requires exists n :: 1 <= n <= |w| && d < Prefix(w, n)
    ensures w[k] > 0.0
  {
    PrefixStep(w, k);
    if k > 0 {
      assert Prefix(w, k) <= d;
    } else {
      assert w[..0] == [];
    }
  }

  /** `random_distribution(weights, accuracy)`. Both checks run before any draw
      is consumed; a successful call consumes exactly one draw. */
  function RandomDistribution(weights: seq<JsNumber>, accuracy: nat, s: Draws): (r: Result<Drawn<nat>>)
    ensures r == Err(InvalidWeights) <==> exists k :: 0 <= k < |weights| && weights[k].NaN?
    ensures r == Err(EmptyWeights) <==> AllFinite(weights) && |weights| == 0
    ensures AllFinite(weights) && |weights| > 0 ==>
              (r == Err(WeightSumMismatch) <==> !SumWithinAccuracy(Sum(Values(weights)), accuracy))
    ensures r == Err(DrawsExhausted) ==> s.Left() == 0
    ensures AllFinite(weights) && |weights| > 0 && SumWithinAccuracy(Sum(Values(weights)), accuracy) ==>
              (r.Ok? <==> s.Left() > 0) && (r.Err? ==> r.error == DrawsExhausted)
    ensures r.Ok? ==> && AllFinite(weights)
                      && r.value.value < |weights|
                      && s.Left() > 0 && r.value.rest == s.Skip(1)
                      && IsSelected(Values(weights), s.Ahead(0), r.value.value)
  {
    if exists k :: 0 <= k < |weights| && RejectsElement(weights[k]) then
      Err(InvalidWeights)
    else if |weights| == 0 then
      Err(EmptyWeights)
    else
      var w := Values(weights);
      SumAcceptedIff(Sum(w), accuracy);
      if !SumAccepted(Sum(w), accuracy) then
        Err(WeightSumMismatch)
      else
        var d :- Next(s);
        Ok(Drawn(Select(w, d.value), d.rest))
  }

  /** Validation failures do not depend on the draws at all. */
  lemma ValidationIgnoresDraws(weights: seq<JsNumber>, accuracy: nat, s: Draws, t: Draws)
    requires RandomDistribution(weights, accuracy, s).Err?
    requires RandomDistribution(weights, accuracy, s).error != DrawsExhausted
    ensures RandomDistribution(weights, accuracy, t) == RandomDistribution(weights, accuracy, s)
  {
  }
}
